=== FILE: README.md ===
# hello-server, modelled in Dafny

hello-server is a single Go program (`test.go`) with three modes:

- `server` accepts TCP connections and logs every line a peer sends.
- `client` sends a numbered "Hello" line to the server on every tick of a ticker. It retries and reconnects when a write fails.
- `loggen` prints random log lines.

This project models the parts of the program that carry its behaviour:

- **Sender**: the client's per-tick send / retry / reconnect state machine.
  - A function (`Attempts`, `TickSpec`, `RunSpec`) defines it.
  - A class (`Sender.Client`) holds the sender's variables, and its `Tick` and `Run` methods are proved equal to those functions.
  - Lemmas prove what the tick promises: one new message per tick, at most three write attempts, and a reconnect after each failed attempt except the last. After the last one fails the process exits, and it never holds two open connections.
- **Message**: the text line the client writes for each attempt, and a parser that reads it back (round trip).
- **Handler**: the server's connection handler.
  - `bufio.Reader.ReadString('\n')` is modelled over the received stream.
  - The line framing is a fold over the stream's characters, with its decomposition, uniqueness and append properties.
  - What the handler logs (connected, one entry per complete line with white space trimmed, then disconnected or a read error) is a specification function. The handler's read loop (`Handler.HandleConnection`) is proved against it.
- **Text**: Go's `strings.TrimSpace` (with `unicode.IsSpace`) and `%d` rendering, together with its inverse.
- **Config**: the `SERVER_ADDR` and `SEND_PERIOD` environment fallbacks, including a corrected reading of `SEND_PERIOD` (see Findings).
- **Cli**: the dispatch in `main` on the mode argument.
- **EndToEnd**: each message the client writes is logged by the handler as exactly that message without its newline, in order.

All files are verified together. `wrappers.dfy` holds the `Option` type.

## Model

| member | source | states |
|---|---|---|
| Text.TrimSpace | test.go:77 | The result is no longer than the input and has no white space (per `unicode.IsSpace`) at either end |
| Text.TrimSpaceIsInner | test.go:77 | What TrimSpace keeps is a contiguous piece of the input with only white space before and after it |
| Text.TrimSpaceOfPadded | test.go:77 | Padding a text that has no white space at its ends with any white space on either side, then trimming, gives that text back |
| Text.NatToDecimal | test.go:177-179 | The `%d` rendering of a count is non-empty, all decimal digits, and has no leading zero unless the number is 0 |
| Text.DecimalRoundTrip | test.go:177-179 | Reading the digits `%d` wrote gives back the number written |
| Text.ParseNumberOfDecimal | test.go:177-179 | A number written by `%d` and followed by a non-digit is parsed back as that number, leaving the rest untouched |
| Message.FormatMessage | test.go:176-180 | The message for an attempt ends in a newline, which is its only newline when the timestamp has none; it starts with a non-space, and the timestamp is exactly what comes right before the newline |
| Message.MessageRoundTrip | test.go:176-180 | Parsing a formatted message recovers the count, the attempt marker (present exactly when the attempt is not the first) and the timestamp |
| Sender.Attempts | test.go:174-209 | Defines the attempt loop from a given attempt on. Its trace starts with a write on the current connection, and the loop leaves messageCount alone and never lowers the next connection number |
| Sender.Reconnect | test.go:196-206 | Defines the reconnect after a failed write: the old connection is closed; a successful dial makes a fresh connection current, and from a valid state the result is valid, with the current connection open exactly when the dial succeeded |
| Sender.TickSpec | test.go:168-209 | Defines one tick: messageCount grows by one, then the attempt loop runs, starting with a write |
| Sender.RunSpec | test.go:166-211 | Defines the ticker loop: at most the given ticks are handled, messageCount grows by the number handled, and handling stops early only after the process exited |
| Sender.AttemptsStartWithWrite | test.go:174-182 | Every attempt starts by writing that attempt's message on the current connection; the write can succeed only on a connection that is not closed |
| Sender.AttemptsKeepCount | test.go:174-209 | The attempt loop leaves messageCount unchanged, and every connection a reconnect dial returns is new |
| Sender.AttemptsConnection | test.go:196-206 | After the attempt loop, the current connection is the one the last successful reconnect returned, or the original one |
| Sender.AttemptsClosedAndExit | test.go:192-197 | The loop adds exactly the connections it closes to the closed ones, and the process has exited exactly when the trace ends in Fatal |
| Sender.AttemptsKeepValid | test.go:196-206 | The attempt loop preserves the invariant that every connection except the current one is closed |
| Sender.AttemptsWrites | test.go:174-182 | The loop writes at least once and at most once per remaining attempt, and its j-th write carries the message of attempt `attempt + j` with that attempt's timestamp |
| Sender.AttemptsFatal | test.go:182-194 | The loop ends in Fatal exactly when all its writes failed, and then only after the write of the last allowed attempt |
| Sender.AttemptsStop | test.go:183-186 | A loop not ending in Fatal ends in a successful write on the current connection; nothing follows a successful write or Fatal |
| Sender.AttemptsRetry | test.go:182-206 | Within the attempt loop every failed write is followed either by Fatal or by the Close of the connection it used and then a reconnect dial |
| Sender.AttemptsReconnect | test.go:196-208 | Every reconnect dial directly follows a failed write and the Close of its connection; the next write uses the new connection, or the closed old one (where it fails) if the dial failed |
| Sender.AttemptsDialOutcomes | test.go:196-206 | Every reconnect dial comes two events after the write of an attempt before the last one, and yields a connection exactly when the environment's dial for that attempt succeeds |
| Sender.TickWrites | test.go:168-182 | A tick counts exactly one new message; it writes between 1 and MaxSendAttempts (3) times, and the k-th write is attempt k of that message |
| Sender.TickEnds | test.go:182-209 | A tick ends in Fatal, and the process exits, exactly when all its writes failed, which takes all 3 writes. Otherwise it ends in its only successful write, whose connection stays current |
| Sender.TickReconnects | test.go:182-208 | Within a tick every failed write is followed by Fatal or by the Close of its connection and a reconnect dial; every dial follows a failed write and the Close of its connection and is followed by the next write; a dial yields a connection exactly when the environment's dial for that attempt succeeds; each connection a dial returns is new, numbered from the tick's first free number |
| Sender.TickConnections | test.go:196-206 | After a tick the current connection is the one the last successful dial returned (or the original one), the closed connections are the earlier ones plus those the tick closed, and at most one connection stays open |
| Sender.RunProgress | test.go:166-211 | Over a run of ticks, messageCount grows by the number of ticks handled; ticks stop only once the process exited; Fatal can only be the last event; at most one connection is ever open |
| Sender.ConnectWithRetry | test.go:148-158 | The initial connect loop stops at the first successful dial, after only failed dials, and connects exactly when some dial succeeds |
| Sender.Client.constructor | test.go:159-164 | Right after the initial connection: count 0, connection 0 current and open, and the invariant holds |
| Sender.Client.Tick | test.go:168-209 | One tick changes the sender's variables and emits events exactly as the specification TickSpec does, and keeps at most one connection open |
| Sender.Client.Run | test.go:166-211 | The ticker loop changes the variables, emits events and handles ticks exactly as RunSpec does, and keeps at most one connection open |
| Handler.ReadString | test.go:68 | Reading from a position yields either one complete line (its only newline last) taken from the stream there, or the rest of the stream without a newline together with the read error |
| Handler.Terminal | test.go:69-75 | The final log entry is a disconnect exactly when the error text is "EOF", and otherwise a read error carrying the reader's own error |
| Handler.Lines | test.go:66-78 | Defines the complete lines successive reads return, by folding the stream character by character; each is a complete line |
| Handler.Fragment | test.go:66-78 | Defines the text after the last newline, which no read completes: an end piece of the stream with no newline |
| Handler.Session | test.go:61-79 | Defines what the handler logs for a stream: connected first, one entry per complete line, then exactly one terminal entry, last, which is a disconnect exactly on EOF |
| Handler.FramingDecomposes | test.go:66-78 | The stream is exactly its complete lines concatenated, followed by a trailing fragment without a newline |
| Handler.FramingUnique | test.go:66-78 | Any split of a stream into complete lines followed by a newline-free fragment is the one the reader produces |
| Handler.NoFragmentAfterNewline | test.go:67-76 | A stream that is empty or ends in a newline leaves no unread fragment and is exactly its lines concatenated |
| Handler.LineCountIsNewlineCount | test.go:67-78 | The number of lines read is the number of newlines in the stream |
| Handler.LinesAppend | test.go:67-78 | The lines of a concatenation are the lines of its parts when the first part ends in a newline, and the fragment is that of the second part |
| Handler.SessionShape | test.go:61-79 | The log is: connected first, then one trimmed Received per line in order, then exactly one terminal entry last (a disconnect exactly on EOF); it has newline-count + 2 entries |
| Handler.FragmentNeverLogged | test.go:68-76 | A trailing fragment without a newline before EOF or an error is never logged |
| Handler.ServerConn.constructor | test.go:61-63 | A new accepted connection is open and records its peer address and stream |
| Handler.HandleConnection | test.go:61-79 | The read loop logs exactly the Session of the connection's stream and closes the connection |
| Config.ServerAddr | test.go:130-134 | An empty SERVER_ADDR gives "localhost:8989" with a notice; any other value is used unchanged |
| Config.SendPeriod | test.go:136-145 | An unset SEND_PERIOD gives 5s; a rejected one gives 5s with a warning; an accepted one is used whatever its sign |
| Config.ZeroSendPeriodReachesTicker | test.go:136-145 | SEND_PERIOD "0s" yields a period that time.NewTicker rejects |
| Config.CheckedSendPeriod | test.go:136-145 | The corrected reading always gives a positive period and agrees with the program wherever the program's period is usable |
| Config.ResolveClientConfig | test.go:130-146 | The client's configuration as the program resolves it: a non-empty address that honours SERVER_ADDR when set; the default period unless SEND_PERIOD parses; a period the ticker rejects exactly when SEND_PERIOD parses to a non-positive duration |
| Cli.Dispatch | test.go:218-234 | Fewer than two arguments print the usage and exit 1; an unknown mode prints a message and exits 1; a mode starts only under its own name |
| Cli.DispatchStartsNamedMode | test.go:223-230 | Every mode is started by its own name, whatever arguments follow |
| EndToEnd.MessageIsOneLine | test.go:176-185 | Each message the client writes is one complete line, and trimming it (as both the client's "Sent" log and the handler do) drops exactly the newline |
| EndToEnd.DeliveredMessagesLogged | test.go:61-79 | The messages written on one connection are logged by the handler one Received each, in order, each showing the message without its newline, followed by the end of the stream |

## Left out

- The server's `net.Listen` and accept loop (test.go:43-59) and the goroutine per connection are not modelled. `Handler.HandleConnection` models one connection, and connections do not interact.
- The log generator mode (`runLogGenerator`, `generateRandomString`, `getRandomLogLevel`) is not modelled. It is random output outside the client/server core.
- Sockets, the clock, `time.Sleep` and the ticker channel are replaced by inputs. The environment is a sequence of per-attempt outcomes (timestamp, write success, dial success) for each tick, and the stream a peer sends is given as a string.
- Sender.Client.Tick: messageCount is an unbounded natural, so the int64 overflow after 2^63 - 1 ticks is not modelled.
- Sender.ConnectWithRetry: the program dials forever, sleeping 5 seconds between failures. The model runs over a finite list of dial outcomes and reports whether one succeeded.
- Sender.Client.Run: the ticker may drop ticks while a slow tick is still retrying. The model handles every tick it is given, one after another.
- `time.ParseDuration` is a library parser and is passed in as a function. `time.Now().Format(time.RFC3339Nano)` timestamps are opaque strings, of which the end-to-end lemmas assume only that they are non-empty, contain no newline and do not end in white space.
- The connection carries bytes, while the model works on characters. The client's messages are ASCII. The handler's stream is assumed to be valid UTF-8 and is modelled as the characters it decodes to; invalid byte sequences, which `strings.TrimSpace` reads as U+FFFD (not white space), are not modelled.
- Log output is modelled as observations (connected, received text, disconnected, read error), not as formatted log lines. The client's informational log lines are not modelled; its writes, closes, dials and the fatal exit are recorded as events.
- The deferred `conn.Close()` and `ticker.Stop()` at client exit are not modelled, because the process exits through `log.Fatalf` or never returns.

## Findings

| source | as written | input that shows it | evidently intended | confidence | as-written member | corrected member |
|---|---|---|---|---|---|---|
| test.go:136-145 | A SEND_PERIOD that `time.ParseDuration` accepts is used even when it is zero or negative, and `time.NewTicker` (test.go:161) panics on a non-positive interval | SEND_PERIOD=0s | A period that is not positive falls back to the 5s default, like a period that fails to parse | not executed | Config.ZeroSendPeriodReachesTicker | Config.CheckedSendPeriod |

=== FILE: cli.dfy ===
/**
 * The command line (test.go, main): the first argument after the program
 * name selects the mode; a missing or unknown mode prints a message and
 * exits with status 1.
 */
module Cli {

  datatype Mode = Server | Client | Loggen

  /** What main does: start a mode, or print and exit. */
  datatype Launch = Start(mode: Mode) | Exit(status: int, output: string)

  const Usage := "Usage: go run main.go <server|client|loggen>\n"

  function UnknownMode(mode: string): string
  {
    "Unknown mode: " + mode + ". Use 'server', 'client', or 'loggen'.\n"
  }

  /** The argument that selects a mode. */
  function ModeName(m: Mode): string
  {
    match m
    case Server => "server"
    case Client => "client"
    case Loggen => "loggen"
  }

  /** main's dispatch on os.Args. */
  function Dispatch(args: seq<string>): (r: Launch)
    ensures |args| < 2 ==> r == Exit(1, Usage)
    ensures r.Start? ==> |args| >= 2 && ModeName(r.mode) == args[1]
    ensures |args| >= 2 && (forall m :: ModeName(m) != args[1]) ==> r == Exit(1, UnknownMode(args[1]))
    ensures r.Exit? ==> r.status == 1
  {
    if |args| < 2 then Exit(1, Usage)
    else
      match args[1]
      case "server" => Start(Server)
      case "client" => Start(Client)
      case "loggen" => Start(Loggen)
      case _ => Exit(1, UnknownMode(args[1]))
  }

  /** Every mode is started by its own name, whatever else follows on the
      command line. */
  lemma DispatchStartsNamedMode(m: Mode, program: string, rest: seq<string>)
    ensures Dispatch([program, ModeName(m)] + rest) == Start(m)
  {
    assert ([program, ModeName(m)] + rest)[1] == ModeName(m);
  }
}

=== FILE: config.dfy ===
/**
 * The client's settings (test.go, runClient): the server address from
 * SERVER_ADDR and the send period from SEND_PERIOD, each falling back to a
 * fixed default. time.ParseDuration is a library parser and is passed in as
 * a function: Some(d) for a string it accepts, None for one it rejects.
 */
module Config {
  import opened Wrappers

  /** A time.Duration: a number of nanoseconds. */
  type Duration = int

  const Second: Duration := 1_000_000_000
  const DefaultServerAddr := "localhost:8989"
  const DefaultSendPeriod: Duration := 5 * Second

  /** A resolved setting, and whether resolving it logged a notice about
      falling back to the default. */
  datatype Setting<T> = Setting(value: T, logged: bool)

  /** SERVER_ADDR: an unset (empty) variable gives the default address, with
      a notice; any other value is used as it is. */
  function ServerAddr(env: string): (r: Setting<string>)
    ensures r.value != ""
    ensures env != "" ==> r.value == env
    ensures env == "" ==> r.value == DefaultServerAddr
    ensures r.logged <==> env == ""
  {
    if env == "" then Setting(DefaultServerAddr, true) else Setting(env, false)
  }

  /** SEND_PERIOD as the program reads it: an unset variable or one
      time.ParseDuration rejects gives the default (the rejected one with a
      warning); otherwise the parsed duration is used, whatever its sign. */
  function SendPeriod(env: string, parseDuration: string -> Option<Duration>): (r: Setting<Duration>)
    ensures r.value == DefaultSendPeriod || parseDuration(env) == Some(r.value)
    ensures env != "" && parseDuration(env).Some? ==> r == Setting(parseDuration(env).value, false)
    ensures r.logged <==> env != "" && parseDuration(env).None?
    ensures r.logged || env == "" ==> r.value == DefaultSendPeriod
  {
    if env == "" then Setting(DefaultSendPeriod, false)
    else
      match parseDuration(env)
      case None => Setting(DefaultSendPeriod, true)
      case Some(d) => Setting(d, false)
  }

  /** time.NewTicker accepts only a positive interval; it panics otherwise. */
  predicate TickerAccepts(d: Duration)
  {
    d > 0
  }

  /** SEND_PERIOD="0s" is accepted by time.ParseDuration (as 0), so the period
      the program hands to time.NewTicker is one the ticker rejects. */
  lemma ZeroSendPeriodReachesTicker(parseDuration: string -> Option<Duration>)
    requires parseDuration("0s") == Some(0)
    ensures !TickerAccepts(SendPeriod("0s", parseDuration).value)
  {
  }

  /** SEND_PERIOD as evidently intended: a value that is not a usable period
      (rejected by the parser, or not positive) falls back to the default
      with a warning, so the ticker always gets a positive interval. Where the
      program's reading already gives a usable period, the two agree. */
  function CheckedSendPeriod(env: string, parseDuration: string -> Option<Duration>): (r: Setting<Duration>)
    ensures TickerAccepts(r.value)
    ensures TickerAccepts(SendPeriod(env, parseDuration).value) ==> r == SendPeriod(env, parseDuration)
    ensures r.value == DefaultSendPeriod || parseDuration(env) == Some(r.value)
    ensures r.logged <==> env != "" && !(parseDuration(env).Some? && TickerAccepts(parseDuration(env).value))
  {
    var period := SendPeriod(env, parseDuration);
    if TickerAccepts(period.value) then period else Setting(DefaultSendPeriod, true)
  }

  /** The configuration the client runs with: the server address and the
      ticker's send period. */
  datatype ClientConfig = ClientConfig(serverAddr: string, sendPeriod: Duration)

  /** The configuration as the program resolves it. It hands time.NewTicker
      an interval the ticker rejects exactly when SEND_PERIOD parses to a
      duration that is not positive. */
  function ResolveClientConfig(addrEnv: string, periodEnv: string,
                               parseDuration: string -> Option<Duration>): (c: ClientConfig)
    ensures c.serverAddr != ""
    ensures addrEnv != "" ==> c.serverAddr == addrEnv
    ensures c.sendPeriod == DefaultSendPeriod || parseDuration(periodEnv) == Some(c.sendPeriod)
    ensures periodEnv == "" || parseDuration(periodEnv).None? ==> c.sendPeriod == DefaultSendPeriod
    ensures !TickerAccepts(c.sendPeriod) <==>
              periodEnv != "" && parseDuration(periodEnv).Some? && !TickerAccepts(parseDuration(periodEnv).value)
  {
    ClientConfig(ServerAddr(addrEnv).value, SendPeriod(periodEnv, parseDuration).value)
  }
}

=== FILE: endtoend.dfy ===
/**
 * The client and the server together: what the connection handler logs for
 * the messages the sender writes.
 */
module EndToEnd {
  import opened Text
  import opened Message
  import opened Handler

  /** What time.Now().Format(time.RFC3339Nano) produces has no newline and
      ends in a digit or zone letter, never in white space. */
  predicate StampOk(ts: string)
  {
    ts != [] && '\n' !in ts && !IsSpace(ts[|ts| - 1])
  }

  /** The message without its newline: what a log line shows of it. */
  function Shown(m: Outgoing): string
  {
    var t := m.Bytes();
    t[..|t| - 1]
  }

  function Texts(ms: seq<Outgoing>): (ts: seq<string>)
    ensures |ts| == |ms|
    ensures forall k :: 0 <= k < |ms| ==> ts[k] == ms[k].Bytes()
  {
    seq(|ms|, k requires 0 <= k < |ms| => ms[k].Bytes())
  }

  /** Each message the client writes is one complete line, and the server
      shows it exactly, without the newline. */
  lemma MessageIsOneLine(m: Outgoing)
    requires StampOk(m.timestamp)
    ensures IsLine(m.Bytes())
    ensures TrimSpace(m.Bytes()) == Shown(m)
  {
    TerminatedLine(m.Bytes());
  }

  /** A text whose only newline is its last character, with no white space
      right after its start or right before the newline, is one line, and
      trimming it drops exactly the newline. */
  lemma TerminatedLine(t: string)
    requires |t| > 1 && t[|t| - 1] == '\n' && '\n' !in t[..|t| - 1]
    requires !IsSpace(t[0]) && !IsSpace(t[|t| - 2])
    ensures IsLine(t) && TrimSpace(t) == t[..|t| - 1]
  {
    var body := t[..|t| - 1];
    assert body[0] == t[0] && body[|body| - 1] == t[|t| - 2];
    assert t == [] + body + "\n";
    TrimSpaceOfPadded([], body, "\n");
  }

  /** The messages the client writes on one connection, in order, are
      logged by the server's handler one Received each, in the same order,
      showing each message without its newline; then the handler logs the
      end of the stream. */
  lemma DeliveredMessagesLogged(addr: string, ms: seq<Outgoing>, end: ReadError)
    requires forall k :: 0 <= k < |ms| ==> StampOk(ms[k].timestamp)
    ensures var log := Session(addr, Concat(Texts(ms)), end);
      && |log| == |ms| + 2
      && log[0] == Connected(addr)
      && (forall k :: 0 <= k < |ms| ==> log[k + 1] == Received(addr, Shown(ms[k])))
      && log[|log| - 1] == Terminal(addr, end)
  {
    var texts := Texts(ms);
    forall k | 0 <= k < |ms| ensures IsLine(texts[k]) && TrimSpace(texts[k]) == Shown(ms[k]) {
      MessageIsOneLine(ms[k]);
    }
    assert Concat(texts) + [] == Concat(texts);
    FramingUnique(texts, []);
    LogShape(addr, texts, end);
  }
}

=== FILE: handler.dfy ===
/**
 * The server's connection handler (test.go, handleConnection): read the
 * connection line by line with bufio.Reader.ReadString('\n'), log every
 * complete line with its white space trimmed, and stop at the first read
 * error, logging a disconnect when the error is EOF and an error otherwise;
 * the connection is closed on the way out.
 *
 * The bytes the peer sends are taken to be valid UTF-8 and are modelled as
 * the text they decode to, followed by the error the reader eventually
 * reports (io.EOF has the text "EOF").
 */
module Handler {
  import opened Text

  /** A read error, known by its text: err.Error(). */
  datatype ReadError = ReadError(text: string)

  const EOF := ReadError("EOF")

  /** What the handler logs. */
  datatype Observation =
    | Connected(addr: string)                     // "Client connected: %s"
    | Received(addr: string, text: string)        // "Received from %s: %s"
    | Disconnected(addr: string)                  // "Client %s disconnected."
    | ReadFailed(addr: string, err: ReadError)    // "Error reading from client %s: %v"
  {
    predicate IsTerminal()
    {
      Disconnected? || ReadFailed?
    }
  }

  /** s has no newline anywhere. */
  predicate NoNewline(s: string)
  {
    forall k :: 0 <= k < |s| ==> s[k] != '\n'
  }

  /** A complete line: it ends in its only newline. */
  predicate IsLine(l: string)
  {
    |l| > 0 && l[|l| - 1] == '\n' && NoNewline(l[..|l| - 1])
  }

  /** The position of the first newline of s at or after from, or |s| when
      there is none. */
  function NextNewline(s: string, from: nat): (i: nat)
    requires from <= |s|
    ensures from <= i <= |s|
    ensures i < |s| ==> s[i] == '\n'
    ensures forall k :: from <= k < i ==> s[k] != '\n'
    decreases |s| - from
  {
    if from == |s| || s[from] == '\n' then from else NextNewline(s, from + 1)
  }

  /** The outcome of one bufio.Reader.ReadString('\n') call. */
  datatype ReadResult = Line(line: string) | Failed(partial: string, err: ReadError)

  /** One read with the reader at position pos of the stream s: the text up
      to and including the next newline, or, when no newline is left, the
      rest of the stream together with the error that ends it. */
  function ReadString(s: string, pos: nat, end: ReadError): (r: ReadResult)
    requires pos <= |s|
    ensures r.Line? ==> IsLine(r.line) && pos + |r.line| <= |s| && r.line == s[pos..pos + |r.line|]
    ensures r.Failed? ==> r.partial == s[pos..] && NoNewline(r.partial) && r.err == end
  {
    var i := NextNewline(s, pos);
    if i == |s| then
      Failed(s[pos..], end)
    else
      var l := s[pos..i + 1];
      var body := l[..|l| - 1];
      assert forall k :: 0 <= k < |body| ==> body[k] == s[pos + k];
      Line(l)
  }

  // ---------------------------------------------------------------------------
  // The framing of a stream into lines

  /** The reader's view of the stream read so far: the complete lines, in
      order, and the text after the last newline, which the reader holds
      until a newline completes it. */
  datatype Framer = Framer(lines: seq<string>, current: string)

  const Start := Framer([], [])

  /** One more character of the stream. */
  function Feed(f: Framer, c: char): Framer
  {
    if c == '\n' then Framer(f.lines + [f.current + ['\n']], []) else Framer(f.lines, f.current + [c])
  }

  function FeedAll(f: Framer, s: string): Framer
    decreases |s|
  {
    if s == [] then f else FeedAll(Feed(f, s[0]), s[1..])
  }

  /** The complete lines of s, in order. */
  function Lines(s: string): (ls: seq<string>)
    ensures AllLines(ls)
  {
    FeedSound(Start, s);
    FeedAll(Start, s).lines
  }

  /** What follows the last newline of s: a fragment no read ever completes.
      It is the end of s, and has no newline. */
  function Fragment(s: string): (r: string)
    ensures NoNewline(r) && |r| <= |s| && r == s[|s| - |r|..]
  {
    var g := FeedAll(Start, s);
    FeedSound(Start, s);
    assert Concat([]) + [] + s == s;
    assert s == Concat(g.lines) + g.current;
    g.current
  }

  function Concat(ls: seq<string>): string
  {
    if ls == [] then [] else ls[0] + Concat(ls[1..])
  }

  predicate AllLines(ls: seq<string>)
  {
    forall k :: 0 <= k < |ls| ==> IsLine(ls[k])
  }

  lemma {:induction false} ConcatAppend(ls: seq<string>, ms: seq<string>)
    ensures Concat(ls + ms) == Concat(ls) + Concat(ms)
    decreases |ls|
  {
    if ls == [] {
      assert ls + ms == ms;
    } else {
      assert (ls + ms)[1..] == ls[1..] + ms;
      ConcatAppend(ls[1..], ms);
    }
  }

  /** Feeding a + b is feeding a, then b. */
  lemma {:induction false} FeedAllAppend(f: Framer, a: string, b: string)
    ensures FeedAll(f, a + b) == FeedAll(FeedAll(f, a), b)
    decreases |a|
  {
    if a == [] {
      assert a + b == b;
    } else {
      assert (a + b)[0] == a[0];
      assert (a + b)[1..] == a[1..] + b;
      FeedAllAppend(Feed(f, a[0]), a[1..], b);
    }
  }

  /** Lines already complete are kept, ahead of the ones still to come. */
  lemma {:induction false} FeedAllLines(f: Framer, s: string)
    ensures FeedAll(f, s).lines == f.lines + FeedAll(Framer([], f.current), s).lines
    ensures FeedAll(f, s).current == FeedAll(Framer([], f.current), s).current
    decreases |s|
  {
    var g := Framer([], f.current);
    if s == [] {
      assert f.lines + [] == f.lines;
    } else {
      var f' := Feed(f, s[0]);
      var g' := Feed(g, s[0]);
      FeedAllLines(f', s[1..]);
      FeedAllLines(g', s[1..]);
      if s[0] == '\n' {
        assert f'.lines == f.lines + g'.lines;
      } else {
        assert g'.lines == [];
      }
    }
  }

  /** Text without a newline only extends the held fragment. */
  lemma {:induction false} FeedNoNewline(f: Framer, x: string)
    requires NoNewline(x)
    ensures FeedAll(f, x) == Framer(f.lines, f.current + x)
    decreases |x|
  {
    if x == [] {
      assert f.current + x == f.current;
    } else {
      FeedNoNewline(Feed(f, x[0]), x[1..]);
      assert f.current + [x[0]] + x[1..] == f.current + x;
    }
  }

  /** A complete line read from a clean start comes out as one line. */
  lemma FeedLine(f: Framer, l: string)
    requires IsLine(l) && f.current == []
    ensures FeedAll(f, l) == Framer(f.lines + [l], [])
  {
    var body := l[..|l| - 1];
    assert l == body + "\n";
    FeedAllAppend(f, body, "\n");
    FeedNoNewline(f, body);
    assert [] + body == body;
  }

  /** A stream that is empty or ends in a newline leaves nothing held. */
  lemma EndsClean(s: string)
    requires s == [] || s[|s| - 1] == '\n'
    ensures Fragment(s) == []
  {
    if s != [] {
      var body := s[..|s| - 1];
      assert s == body + "\n";
      FeedAllAppend(Start, body, "\n");
    }
  }

  /** One character keeps the framer sound: complete lines only, a held
      fragment without a newline, and nothing lost or reordered. */
  lemma FeedStep(f: Framer, c: char)
    requires AllLines(f.lines) && NoNewline(f.current)
    ensures var g := Feed(f, c);
      && AllLines(g.lines) && NoNewline(g.current)
      && Concat(g.lines) + g.current == Concat(f.lines) + f.current + [c]
  {
    var g := Feed(f, c);
    if c == '\n' {
      var l := f.current + ['\n'];
      assert l[..|l| - 1] == f.current;
      assert AllLines(g.lines) by {
        forall k | 0 <= k < |g.lines| ensures IsLine(g.lines[k]) {
          if k < |f.lines| {
            assert g.lines[k] == f.lines[k];
          }
        }
      }
      ConcatAppend(f.lines, [l]);
      assert Concat([l]) == l + Concat([]);
      assert l + [] == l;
    }
  }

  lemma {:induction false} FeedSound(f: Framer, s: string)
    requires AllLines(f.lines) && NoNewline(f.current)
    ensures var g := FeedAll(f, s);
      && AllLines(g.lines) && NoNewline(g.current)
      && Concat(g.lines) + g.current == Concat(f.lines) + f.current + s
    decreases |s|
  {
    if s == [] {
      assert Concat(f.lines) + f.current + s == Concat(f.lines) + f.current;
    } else {
      FeedStep(f, s[0]);
      FeedSound(Feed(f, s[0]), s[1..]);
      assert Concat(f.lines) + f.current + [s[0]] + s[1..] == Concat(f.lines) + f.current + s;
    }
  }

  /** The framing splits the stream exactly: its complete lines, in arrival
      order, followed by the fragment after the last newline, are the whole
      stream, and they are complete lines. */
  lemma FramingDecomposes(s: string)
    ensures AllLines(Lines(s)) && NoNewline(Fragment(s))
    ensures Concat(Lines(s)) + Fragment(s) == s
  {
    FeedSound(Start, s);
    assert Concat([]) + [] + s == s;
  }

  lemma {:induction false} FeedLines(f: Framer, ls: seq<string>, rest: string)
    requires AllLines(ls) && NoNewline(rest) && f.current == []
    ensures FeedAll(f, Concat(ls) + rest) == Framer(f.lines + ls, rest)
    decreases |ls|
  {
    if ls == [] {
      assert Concat(ls) + rest == rest;
      FeedNoNewline(f, rest);
      assert f.lines + ls == f.lines;
    } else {
      var l := ls[0];
      assert AllLines(ls[1..]) by {
        forall k | 0 <= k < |ls[1..]| ensures IsLine(ls[1..][k]) {
          assert ls[1..][k] == ls[k + 1];
        }
      }
      assert Concat(ls) + rest == l + (Concat(ls[1..]) + rest);
      FeedAllAppend(f, l, Concat(ls[1..]) + rest);
      FeedLine(f, l);
      FeedLines(Framer(f.lines + [l], []), ls[1..], rest);
      assert f.lines + [l] + ls[1..] == f.lines + ls;
    }
  }

  /** The framing is the only such split: any sequence of complete lines
      followed by a text without a newline is framed back into exactly those
      lines and that fragment. */
  lemma FramingUnique(ls: seq<string>, rest: string)
    requires AllLines(ls) && NoNewline(rest)
    ensures Lines(Concat(ls) + rest) == ls && Fragment(Concat(ls) + rest) == rest
  {
    FeedLines(Start, ls, rest);
    assert [] + ls == ls;
  }

  /** A stream that is empty or ends in a newline leaves no fragment. */
  lemma NoFragmentAfterNewline(s: string)
    requires s == [] || s[|s| - 1] == '\n'
    ensures Fragment(s) == [] && Concat(Lines(s)) == s
  {
    EndsClean(s);
    FramingDecomposes(s);
    assert Concat(Lines(s)) + [] == Concat(Lines(s));
  }

  lemma {:induction false} FeedCount(f: Framer, s: string)
    ensures |FeedAll(f, s).lines| == |f.lines| + multiset(s)['\n']
    decreases |s|
  {
    if s != [] {
      FeedCount(Feed(f, s[0]), s[1..]);
      assert s == [s[0]] + s[1..];
      assert multiset(s) == multiset([s[0]]) + multiset(s[1..]);
    }
  }

  /** Each newline of the stream completes exactly one line. */
  lemma LineCountIsNewlineCount(s: string)
    ensures |Lines(s)| == multiset(s)['\n']
  {
    FeedCount(Start, s);
  }

  /** Lines come out in arrival order: once a stream has ended a line, the
      lines of what follows come after the lines so far, and what follows
      alone decides the fragment left over. */
  lemma LinesAppend(a: string, b: string)
    requires a == [] || a[|a| - 1] == '\n'
    ensures Lines(a + b) == Lines(a) + Lines(b)
    ensures Fragment(a + b) == Fragment(b)
  {
    FeedAllAppend(Start, a, b);
    EndsClean(a);
    FeedAllLines(FeedAll(Start, a), b);
  }

  /** A text without a newline is all fragment. */
  lemma NoNewlineFrames(s: string)
    requires NoNewline(s)
    ensures Lines(s) == [] && Fragment(s) == s
  {
    FeedNoNewline(Start, s);
    assert [] + s == s;
  }

  /** A stream that starts with a complete line is framed as that line
      followed by the lines of the rest. */
  lemma LinesAfterLine(l: string, t: string)
    requires IsLine(l)
    ensures Lines(l + t) == [l] + Lines(t)
  {
    LinesAppend(l, t);
    FeedLine(Start, l);
  }

  // ---------------------------------------------------------------------------
  // What the handler logs

  /** The observation at the end of the stream: err.Error() is compared with
      the text "EOF". */
  function Terminal(addr: string, err: ReadError): (o: Observation)
    ensures o.IsTerminal() && o.addr == addr
    ensures o.Disconnected? <==> err.text == "EOF"
    ensures o.ReadFailed? ==> o.err == err
  {
    if err.text != "EOF" then ReadFailed(addr, err) else Disconnected(addr)
  }

  function Receipts(addr: string, ls: seq<string>): (obs: seq<Observation>)
    ensures |obs| == |ls|
    ensures forall k :: 0 <= k < |ls| ==> obs[k] == Received(addr, TrimSpace(ls[k]))
  {
    seq(|ls|, k requires 0 <= k < |ls| => Received(addr, TrimSpace(ls[k])))
  }

  /** Everything the handler logs for a peer at addr sending s, after which
      the reader reports end. */
  function Session(addr: string, s: string, end: ReadError): (log: seq<Observation>)
    ensures |log| == |Lines(s)| + 2 && log[0] == Connected(addr)
    ensures forall k :: 0 <= k < |log| ==> (log[k].IsTerminal() <==> k == |log| - 1)
    ensures log[|log| - 1].Disconnected? <==> end.text == "EOF"
  {
    LogShape(addr, Lines(s), end);
    [Connected(addr)] + Receipts(addr, Lines(s)) + [Terminal(addr, end)]
  }

  /** The handler logs the connection first, then one Received per complete
      line in arrival order with its white space trimmed, then exactly one
      terminal observation, last: a disconnect exactly when the read error
      is EOF. The number of Received observations is the number of newlines
      in the stream. */
  lemma SessionShape(addr: string, s: string, end: ReadError)
    ensures var log := Session(addr, s, end);
      && |log| == multiset(s)['\n'] + 2
      && log[0] == Connected(addr)
      && (forall k :: 1 <= k < |log| - 1 ==> log[k] == Received(addr, TrimSpace(Lines(s)[k - 1])))
      && (forall k :: 0 <= k < |log| ==> (log[k].IsTerminal() <==> k == |log| - 1))
      && (log[|log| - 1].Disconnected? <==> end.text == "EOF")
  {
    LineCountIsNewlineCount(s);
    LogShape(addr, Lines(s), end);
  }

  lemma LogShape(addr: string, ls: seq<string>, end: ReadError)
    ensures var log := [Connected(addr)] + Receipts(addr, ls) + [Terminal(addr, end)];
      && |log| == |ls| + 2
      && (forall k :: 1 <= k < |log| - 1 ==> log[k] == Received(addr, TrimSpace(ls[k - 1])))
      && (forall k :: 0 <= k < |log| ==> (log[k].IsTerminal() <==> k == |log| - 1))
  {
    var r := Receipts(addr, ls);
    var log := [Connected(addr)] + r + [Terminal(addr, end)];
    Framed(Connected(addr), r, Terminal(addr, end));
    forall k | 0 <= k < |log| ensures log[k].IsTerminal() <==> k == |log| - 1 {
      if 1 <= k < |log| - 1 {
        assert log[k].Received?;
      }
    }
  }

  /** Where the parts of [first] + middle + [last] are. */
  lemma Framed<T>(first: T, middle: seq<T>, last: T)
    ensures var s := [first] + middle + [last];
      && |s| == |middle| + 2 && s[0] == first && s[|s| - 1] == last
      && (forall k :: 1 <= k < |s| - 1 ==> s[k] == middle[k - 1])
  {
  }

  /** A fragment that no newline completes is never logged: a stream of
      complete lines with such a fragment after it, before EOF or an error,
      is logged exactly like the complete lines alone. */
  lemma FragmentNeverLogged(addr: string, s: string, fragment: string, end: ReadError)
    requires s == [] || s[|s| - 1] == '\n'
    requires NoNewline(fragment)
    ensures Session(addr, s + fragment, end) == Session(addr, s, end)
  {
    LinesAppend(s, fragment);
    NoNewlineFrames(fragment);
    assert Lines(s) + [] == Lines(s);
  }

  // ---------------------------------------------------------------------------
  // The handler as the program runs it

  /** The server side of one accepted connection. */
  class ServerConn {
    const remote: string        // conn.RemoteAddr().String()
    const incoming: string      // everything the peer sends
    const end: ReadError        // the error the reader reports after it
    var closed: bool

    constructor (remote: string, incoming: string, end: ReadError)
      ensures this.remote == remote && this.incoming == incoming && this.end == end && !closed
    {
      this.remote, this.incoming, this.end := remote, incoming, end;
      closed := false;
    }
  }

  method HandleConnection(conn: ServerConn) returns (log: seq<Observation>)
    modifies conn
    ensures conn.closed
    ensures log == Session(conn.remote, conn.incoming, conn.end)
  {
    var clientAddr := conn.remote;
    log := [Connected(clientAddr)];
    var pos := 0;
    assert conn.incoming[pos..] == conn.incoming;
    while true
      invariant pos <= |conn.incoming|
      invariant Session(clientAddr, conn.incoming, conn.end)
             == log + Receipts(clientAddr, Lines(conn.incoming[pos..])) + [Terminal(clientAddr, conn.end)]
      decreases |conn.incoming| - pos
    {
      var r := ReadString(conn.incoming, pos, conn.end);
      ReadAdvances(clientAddr, log, conn.incoming, pos, conn.end);
      if r.Failed? {
        if r.err.text != "EOF" {
          log := log + [ReadFailed(clientAddr, r.err)];
        } else {
          log := log + [Disconnected(clientAddr)];
        }
        break;
      }
      log := log + [Received(clientAddr, TrimSpace(r.line))];
      pos := pos + |r.line|;
    }
    conn.closed := true;
  }

  /** One ReadString call of the handler loop: a failed read leaves no
      complete line unread, and a successful one logs the next complete
      line and leaves the reader just after it. */
  lemma ReadAdvances(addr: string, log: seq<Observation>, s: string, pos: nat, end: ReadError)
    requires pos <= |s|
    ensures var r := ReadString(s, pos, end);
      var t := [Terminal(addr, end)];
      && (r.Failed? ==> log + Receipts(addr, Lines(s[pos..])) + t == log + t)
      && (r.Line? ==>
            && pos < pos + |r.line| <= |s|
            && log + Receipts(addr, Lines(s[pos..])) + t
               == (log + [Received(addr, TrimSpace(r.line))]) + Receipts(addr, Lines(s[pos + |r.line|..])) + t)
  {
    var r := ReadString(s, pos, end);
    if r.Failed? {
      NoNewlineFrames(s[pos..]);
    } else {
      var rest := s[pos + |r.line|..];
      assert s[pos..] == r.line + rest;
      LinesAfterLine(r.line, rest);
      ReceiptsCons(addr, r.line, Lines(rest));
    }
  }

  lemma ReceiptsCons(addr: string, l: string, ls: seq<string>)
    ensures Receipts(addr, [l] + ls) == [Received(addr, TrimSpace(l))] + Receipts(addr, ls)
  {
    var a := Receipts(addr, [l] + ls);
    var b := [Received(addr, TrimSpace(l))] + Receipts(addr, ls);
    forall k | 0 <= k < |a| ensures a[k] == b[k] {
      if k > 0 {
        assert ([l] + ls)[k] == ls[k - 1];
      }
    }
  }
}

=== FILE: message.dfy ===
/**
 * The text line the client sends on each attempt (test.go, runClient):
 *   attempt 1:  "Hello #<count> from client at <timestamp>\n"
 *   attempt k:  "Hello #<count> (attempt <k>) from client at <timestamp>\n"
 * The timestamp is whatever time.Now().Format(time.RFC3339Nano) gave for
 * that attempt; it is an opaque string here.
 */
module Message {
  import opened Wrappers
  import opened Text

  const Greeting := "Hello #"
  const AttemptOpen := " (attempt "
  const AttemptClose := ")"
  const Trailer := " from client at "

  /** The "(attempt k)" marker: empty on the first attempt of a tick. */
  function Marker(attempt: nat): string
  {
    if attempt == 1 then "" else AttemptOpen + NatToDecimal(attempt) + AttemptClose
  }

  /** The message without its terminating newline. */
  function MessageLine(count: nat, attempt: nat, timestamp: string): string
  {
    Greeting + (NatToDecimal(count) + (Marker(attempt) + (Trailer + timestamp)))
  }

  /** The message for one attempt of one tick: a single line, starting with
      the greeting, whose only newline is its terminator when the timestamp
      has none, and whose text ends with the timestamp. */
  function FormatMessage(count: nat, attempt: nat, timestamp: string): (m: string)
    ensures |m| > |timestamp| + 1 && m[|m| - 1] == '\n'
    ensures '\n' !in timestamp ==> '\n' !in m[..|m| - 1]
    ensures !IsSpace(m[0])
    ensures timestamp != [] ==> m[|m| - 2] == timestamp[|timestamp| - 1]
    ensures m[|m| - 1 - |timestamp|..|m| - 1] == timestamp
  {
    var line := MessageLine(count, attempt, timestamp);
    LineFacts(count, attempt, timestamp);
    var m := line + "\n";
    assert m[..|line|] == line;
    assert m[|m| - 1 - |timestamp|..|m| - 1] == line[|line| - |timestamp|..];
    m
  }

  lemma LineFacts(count: nat, attempt: nat, timestamp: string)
    ensures var line := MessageLine(count, attempt, timestamp);
      && |line| > |timestamp| && line[0] == 'H'
      && ('\n' !in timestamp ==> '\n' !in line)
      && (timestamp != [] ==> line[|line| - 1] == timestamp[|timestamp| - 1])
      && line[|line| - |timestamp|..] == timestamp
  {
    var d := NatToDecimal(count);
    var tail := Trailer + timestamp;
    var mid := Marker(attempt) + tail;
    DigitsHaveNoNewline(d);
    assert '\n' !in Marker(attempt) by {
      if attempt != 1 {
        DigitsHaveNoNewline(NatToDecimal(attempt));
      }
    }
    assert '\n' !in Trailer;
    assert '\n' !in Greeting;
    LineEndsWithTimestamp(count, attempt, timestamp);
    if timestamp != [] {
      assert tail[|tail| - 1] == timestamp[|timestamp| - 1];
      assert mid[|mid| - 1] == tail[|tail| - 1];
      assert (d + mid)[|d + mid| - 1] == mid[|mid| - 1];
    }
  }

  /** A message line ends with its timestamp. */
  lemma LineEndsWithTimestamp(count: nat, attempt: nat, timestamp: string)
    ensures var line := MessageLine(count, attempt, timestamp);
      |timestamp| <= |line| && line[|line| - |timestamp|..] == timestamp
  {
    var d := NatToDecimal(count);
    var tail := Trailer + timestamp;
    var mid := Marker(attempt) + tail;
    SuffixOfAppend(Trailer, timestamp, timestamp);
    SuffixOfAppend(Marker(attempt), tail, timestamp);
    SuffixOfAppend(d, mid, timestamp);
    SuffixOfAppend(Greeting, d + mid, timestamp);
  }

  /** A text that ends in ts still ends in ts after anything is put in front. */
  lemma SuffixOfAppend(x: string, y: string, ts: string)
    requires |ts| <= |y| && y[|y| - |ts|..] == ts
    ensures (x + y)[|x + y| - |ts|..] == ts
  {
    assert (x + y)[|x + y| - |ts|..] == y[|y| - |ts|..];
  }

  lemma DigitsHaveNoNewline(s: string)
    requires AllDigits(s)
    ensures '\n' !in s
  {
  }

  /** The message of one attempt before it is rendered: the tick's sequence
      number, the attempt number and the timestamp taken for the attempt. */
  datatype Outgoing = Outgoing(count: nat, attempt: nat, timestamp: string)
  {
    /** The bytes written to the connection. */
    function Bytes(): string
    {
      FormatMessage(count, attempt, timestamp)
    }
  }

  /** What a reader of the line can recover: the tick's sequence number, the
      attempt marker (absent on a first attempt) and the timestamp. */
  datatype Fields = Fields(count: nat, retry: Option<nat>, timestamp: string)

  predicate StartsWith(s: string, prefix: string)
  {
    |prefix| <= |s| && s[..|prefix|] == prefix
  }

  /** Reads a message line back into its fields; None if the line does not
      have either of the two shapes FormatMessage writes. */
  function ParseMessage(m: string): Option<Fields>
  {
    if !StartsWith(m, Greeting) then None
    else
      match ParseNumber(m[|Greeting|..])
      case None => None
      case Some((count, afterCount)) => ParseAfterCount(count, afterCount)
  }

  /** The part of a message after its sequence number. */
  function ParseAfterCount(count: nat, s: string): Option<Fields>
  {
    if StartsWith(s, Trailer) then
      match ParseTimestamp(s[|Trailer|..])
      case None => None
      case Some(ts) => Some(Fields(count, None, ts))
    else if StartsWith(s, AttemptOpen) then
      match ParseNumber(s[|AttemptOpen|..])
      case None => None
      case Some((attempt, afterAttempt)) =>
        if !StartsWith(afterAttempt, AttemptClose + Trailer) then None
        else
          match ParseTimestamp(afterAttempt[|AttemptClose + Trailer|..])
          case None => None
          case Some(ts) => Some(Fields(count, Some(attempt), ts))
    else None
  }

  /** The rest of the line up to its terminating newline. */
  function ParseTimestamp(s: string): Option<string>
  {
    if |s| > 0 && s[|s| - 1] == '\n' then Some(s[..|s| - 1]) else None
  }

  lemma SkipPrefix(prefix: string, rest: string)
    ensures StartsWith(prefix + rest, prefix) && (prefix + rest)[|prefix|..] == rest
  {
    assert (prefix + rest)[..|prefix|] == prefix;
  }

  /** Every message can be read back: it carries the tick's sequence number,
      carries an "(attempt k)" marker exactly when k is not the first attempt,
      and carries the timestamp taken for that attempt. */
  lemma MessageRoundTrip(count: nat, attempt: nat, timestamp: string)
    ensures ParseMessage(FormatMessage(count, attempt, timestamp))
         == Some(Fields(count, if attempt == 1 then None else Some(attempt), timestamp))
  {
    var tail := timestamp + "\n";
    assert ParseTimestamp(tail) == Some(timestamp) by {
      assert tail[..|tail| - 1] == timestamp;
    }
    var rest := Marker(attempt) + (Trailer + tail);
    FormatShape(count, attempt, timestamp);
    SkipPrefix(Greeting, NatToDecimal(count) + rest);
    if attempt == 1 {
      assert rest == Trailer + tail;
      ParseNumberOfDecimal(count, rest);
      SkipPrefix(Trailer, tail);
    } else {
      assert rest[0] == ' ';
      ParseNumberOfDecimal(count, rest);
      AfterCountOfRetry(count, attempt, tail);
    }
  }

  /** The message is the greeting, the number, and what follows the number. */
  lemma FormatShape(count: nat, attempt: nat, timestamp: string)
    ensures FormatMessage(count, attempt, timestamp)
         == Greeting + (NatToDecimal(count) + (Marker(attempt) + (Trailer + (timestamp + "\n"))))
  {
    var line := MessageLine(count, attempt, timestamp);
    var d := NatToDecimal(count);
    var mk := Marker(attempt);
    calc {
      line + "\n";
      Greeting + (d + (mk + (Trailer + timestamp))) + "\n";
      Greeting + ((d + (mk + (Trailer + timestamp))) + "\n");
      Greeting + (d + ((mk + (Trailer + timestamp)) + "\n"));
      Greeting + (d + (mk + ((Trailer + timestamp) + "\n")));
      Greeting + (d + (mk + (Trailer + (timestamp + "\n"))));
    }
  }

  lemma AfterCountOfRetry(count: nat, attempt: nat, tail: string)
    requires attempt != 1 && ParseTimestamp(tail).Some?
    ensures ParseAfterCount(count, Marker(attempt) + (Trailer + tail))
         == Some(Fields(count, Some(attempt), ParseTimestamp(tail).value))
  {
    var closing := AttemptClose + Trailer;
    var s := AttemptOpen + (NatToDecimal(attempt) + (closing + tail));
    var d := NatToDecimal(attempt);
    calc {
      Marker(attempt) + (Trailer + tail);
      (AttemptOpen + d + AttemptClose) + (Trailer + tail);
      AttemptOpen + (d + AttemptClose) + (Trailer + tail);
      AttemptOpen + ((d + AttemptClose) + (Trailer + tail));
      AttemptOpen + (d + (AttemptClose + (Trailer + tail)));
      s;
    }
    assert !StartsWith(s, Trailer) by {
      assert s[1] == AttemptOpen[1];
    }
    SkipPrefix(AttemptOpen, NatToDecimal(attempt) + (closing + tail));
    ParseNumberOfDecimal(attempt, closing + tail);
    SkipPrefix(closing, tail);
  }
}

=== FILE: sender.dfy ===
/**
 * The client's sender (test.go, runClient): the per-tick send / retry /
 * reconnect state machine and the loop that drives it.
 *
 * Sockets, the clock and the ticker are replaced by inputs. For each attempt
 * of a tick the environment supplies the timestamp taken for that attempt,
 * whether conn.Write would succeed on an open connection, and whether the
 * reconnect dial would succeed. A successful dial yields a connection that
 * was never handed out before: connections are numbered in dial order.
 * Writing on a connection that has been closed always fails, as a closed
 * net.Conn does.
 */
module Sender {
  import opened Wrappers
  import opened Message

  /** maxSendAttempts: the bound on write attempts within one tick. */
  const MaxSendAttempts: nat := 3

  /** A client-side connection, numbered in dial order (0 is the connection
      made before the first tick). */
  type ConnId = nat

  /** What the outside world does on one attempt of a tick. */
  datatype AttemptEnv = AttemptEnv(timestamp: string, writeOk: bool, dialOk: bool)

  /** What the sender does, in order. */
  datatype Event =
    | Write(conn: ConnId, msg: Outgoing, ok: bool) // conn.Write of msg.Bytes() and its outcome
    | Close(conn: ConnId)                           // conn.Close before a reconnect
    | Dial(result: Option<ConnId>)                  // net.DialTimeout for a reconnect
    | Fatal(messageCount: nat, attempts: nat)       // log.Fatalf: the process exits

  /** The sender's variables: messageCount, the current conn, the connections
      closed so far, the number of the next connection a dial yields, and
      whether the process has exited. */
  datatype SenderState = SenderState(
    messageCount: nat, conn: ConnId, closed: set<ConnId>, nextId: ConnId, exited: bool)

  /** The state right after the initial connection succeeded. */
  const Initial := SenderState(0, 0, {}, 1, false)

  /** Connections are numbered below nextId, and every one except the current
      connection is closed: the sender never holds two open connections. */
  ghost predicate Valid(st: SenderState)
  {
    && st.conn < st.nextId
    && (forall id :: id in st.closed ==> id < st.nextId)
    && (forall id: nat :: id < st.nextId && id != st.conn ==> id in st.closed)
  }

  /** The attempt loop of one tick from attempt number `attempt` on, starting
      in state st (messageCount already incremented). Yields the state after
      the tick and what was done. */
  function Attempts(st: SenderState, attempt: nat, env: seq<AttemptEnv>): (r: (SenderState, seq<Event>))
    requires 1 <= attempt <= MaxSendAttempts <= |env|
    ensures |r.1| > 0 && r.1[0].Write? && r.1[0].conn == st.conn
    ensures r.0.messageCount == st.messageCount && st.nextId <= r.0.nextId
    decreases MaxSendAttempts - attempt
  {
    var a := env[attempt - 1];
    var ok := a.writeOk && st.conn !in st.closed;
    var write := Write(st.conn, Outgoing(st.messageCount, attempt, a.timestamp), ok);
    if ok then
      (st, [write])
    else if attempt == MaxSendAttempts then
      (st.(exited := true), [write, Fatal(st.messageCount, MaxSendAttempts)])
    else
      var rest := Attempts(Reconnect(st, a.dialOk), attempt + 1, env);
      (rest.0, [write] + ReconnectEvents(st, a.dialOk) + rest.1)
  }

  /** After a failed write that was not the last attempt: the connection is
      closed, and a successful dial makes the new connection current; after a
      failed dial the closed connection stays current. */
  function Reconnect(st: SenderState, dialOk: bool): (r: SenderState)
    ensures r.messageCount == st.messageCount && r.exited == st.exited
    ensures st.conn in r.closed && st.closed <= r.closed
    ensures Valid(st) ==> Valid(r) && (r.conn !in r.closed <==> dialOk)
  {
    var dropped := st.(closed := st.closed + {st.conn});
    if dialOk then dropped.(conn := st.nextId, nextId := st.nextId + 1) else dropped
  }

  function ReconnectEvents(st: SenderState, dialOk: bool): seq<Event>
  {
    [Close(st.conn), Dial(if dialOk then Some(st.nextId) else None)]
  }

  /** One tick of the ticker: count the new message, then run the attempts. */
  function TickSpec(st: SenderState, env: seq<AttemptEnv>): (r: (SenderState, seq<Event>))
    requires MaxSendAttempts <= |env|
    ensures r.0.messageCount == st.messageCount + 1 && |r.1| > 0 && r.1[0].Write?
  {
    Attempts(st.(messageCount := st.messageCount + 1), 1, env)
  }

  /** Every tick supplies the outcomes of all MaxSendAttempts attempts. */
  predicate WellSupplied(ticks: seq<seq<AttemptEnv>>)
    decreases |ticks|
  {
    ticks == [] || (MaxSendAttempts <= |ticks[0]| && WellSupplied(ticks[1..]))
  }

  /** The select loop over ticks: ticks are handled one after another until
      the process exits. Yields the final state, the events, and the number
      of ticks that were handled. */
  function RunSpec(st: SenderState, ticks: seq<seq<AttemptEnv>>): (r: (SenderState, seq<Event>, nat))
    requires WellSupplied(ticks)
    ensures r.2 <= |ticks| && r.0.messageCount == st.messageCount + r.2
    ensures r.2 < |ticks| ==> r.0.exited
    decreases |ticks|
  {
    if ticks == [] || st.exited then (st, [], 0)
    else
      var tick := TickSpec(st, ticks[0]);
      var rest := RunSpec(tick.0, ticks[1..]);
      (rest.0, tick.1 + rest.1, rest.2 + 1)
  }

  // ---------------------------------------------------------------------------
  // Reference views of a trace

  /** The writes of a trace, in order. */
  function Writes(trace: seq<Event>): (ws: seq<Event>)
    ensures |ws| <= |trace|
    ensures forall k :: 0 <= k < |ws| ==> ws[k].Write?
  {
    if trace == [] then []
    else if trace[0].Write? then [trace[0]] + Writes(trace[1..])
    else Writes(trace[1..])
  }

  /** The connection current after the events of a trace, starting from c:
      the one the most recent successful dial returned, or c if none did. */
  function CurrentAfter(c: ConnId, trace: seq<Event>): ConnId
    decreases |trace|
  {
    if trace == [] then c
    else if trace[0].Dial? && trace[0].result.Some? then CurrentAfter(trace[0].result.value, trace[1..])
    else CurrentAfter(c, trace[1..])
  }

  /** The connections a trace closes. */
  function ClosedBy(trace: seq<Event>): set<ConnId>
  {
    set i | 0 <= i < |trace| && trace[i].Close? :: trace[i].conn
  }

  predicate AllFailed(ws: seq<Event>)
    requires forall k :: 0 <= k < |ws| ==> ws[k].Write?
  {
    forall k :: 0 <= k < |ws| ==> !ws[k].ok
  }

  /** Every reconnect dial directly follows a failed write and the Close of
      the connection that write used; the next event is a write, on the
      connection the dial returned or, when the dial failed, on the closed
      old connection, where it fails. */
  predicate DialsFollowClose(trace: seq<Event>)
  {
    forall i :: 0 <= i < |trace| && trace[i].Dial? ==> DialWellPlaced(trace, i)
  }

  predicate DialWellPlaced(trace: seq<Event>, i: nat)
    requires i < |trace|
  {
    && trace[i].Dial?
    && 2 <= i && i + 1 < |trace|
    && trace[i - 2].Write? && !trace[i - 2].ok
    && trace[i - 1] == Close(trace[i - 2].conn)
    && trace[i + 1].Write?
    && trace[i + 1].conn == (if trace[i].result.Some? then trace[i].result.value else trace[i - 2].conn)
    && (trace[i].result.None? ==> !trace[i + 1].ok)
  }

  /** Every failed write is followed either by Fatal or by the Close of the
      connection it used and a reconnect dial: a failed write is never
      retried on the same connection without a reconnect. */
  predicate FailuresReconnect(trace: seq<Event>)
  {
    forall i :: 0 <= i < |trace| && trace[i].Write? && !trace[i].ok ==> FailureWellPlaced(trace, i)
  }

  predicate FailureWellPlaced(trace: seq<Event>, i: nat)
    requires i < |trace|
  {
    && trace[i].Write?
    && i + 1 < |trace|
    && (trace[i + 1].Fatal? || (i + 2 < |trace| && trace[i + 1] == Close(trace[i].conn) && trace[i + 2].Dial?))
  }

  /** Every reconnect dial reports the outcome the environment gave the
      dial of its attempt: it yields a connection exactly when that dial
      succeeded. The attempt is the one whose failed write (two events
      earlier) started the reconnect, and it is not the last allowed one. */
  predicate DialsFollowEnv(trace: seq<Event>, attempt: nat, env: seq<AttemptEnv>)
  {
    forall i :: 0 <= i < |trace| && trace[i].Dial? ==> DialMatchesEnv(trace, i, attempt, env)
  }

  predicate DialMatchesEnv(trace: seq<Event>, i: nat, attempt: nat, env: seq<AttemptEnv>)
    requires i < |trace|
  {
    && trace[i].Dial?
    && 2 <= i && trace[i - 2].Write?
    && 1 <= attempt <= trace[i - 2].msg.attempt < MaxSendAttempts <= |env|
    && (trace[i].result.Some? <==> env[trace[i - 2].msg.attempt - 1].dialOk)
  }

  lemma DialMatchesEnvShift(prefix: seq<Event>, rest: seq<Event>, i: nat, attempt: nat, env: seq<AttemptEnv>)
    requires i < |rest| && DialMatchesEnv(rest, i, attempt + 1, env) && 1 <= attempt
    ensures DialMatchesEnv(prefix + rest, |prefix| + i, attempt, env)
  {
    var t := prefix + rest;
    var j := |prefix| + i;
    assert t[j] == rest[i] && t[j - 2] == rest[i - 2];
  }

  lemma FailureWellPlacedShift(prefix: seq<Event>, rest: seq<Event>, i: nat)
    requires i < |rest| && FailureWellPlaced(rest, i)
    ensures FailureWellPlaced(prefix + rest, |prefix| + i)
  {
    var t := prefix + rest;
    var j := |prefix| + i;
    assert t[j] == rest[i] && t[j + 1] == rest[i + 1];
    if i + 2 < |rest| { assert t[j + 2] == rest[i + 2]; }
  }

  lemma DialWellPlacedShift(prefix: seq<Event>, rest: seq<Event>, i: nat)
    requires i < |rest| && DialWellPlaced(rest, i)
    ensures DialWellPlaced(prefix + rest, |prefix| + i)
  {
    var t := prefix + rest;
    var j := |prefix| + i;
    assert t[j] == rest[i] && t[j - 2] == rest[i - 2] && t[j - 1] == rest[i - 1] && t[j + 1] == rest[i + 1];
  }

  lemma {:induction false} WritesAppend(a: seq<Event>, b: seq<Event>)
    ensures Writes(a + b) == Writes(a) + Writes(b)
    decreases |a|
  {
    if a != [] {
      assert (a + b)[1..] == a[1..] + b;
      WritesAppend(a[1..], b);
    } else {
      assert a + b == b;
    }
  }

  lemma {:induction false} CurrentAfterAppend(c: ConnId, a: seq<Event>, b: seq<Event>)
    ensures CurrentAfter(c, a + b) == CurrentAfter(CurrentAfter(c, a), b)
    decreases |a|
  {
    if a != [] {
      assert (a + b)[1..] == a[1..] + b;
      var c' := if a[0].Dial? && a[0].result.Some? then a[0].result.value else c;
      CurrentAfterAppend(c', a[1..], b);
    } else {
      assert a + b == b;
    }
  }

  lemma ClosedByAppend(a: seq<Event>, b: seq<Event>)
    ensures ClosedBy(a + b) == ClosedBy(a) + ClosedBy(b)
  {
    var ab := a + b;
    forall c | c in ClosedBy(ab) ensures c in ClosedBy(a) + ClosedBy(b) {
      var i :| 0 <= i < |ab| && ab[i].Close? && ab[i].conn == c;
      if i >= |a| { assert b[i - |a|] == ab[i]; }
    }
    forall c | c in ClosedBy(a) ensures c in ClosedBy(ab) {
      var i :| 0 <= i < |a| && a[i].Close? && a[i].conn == c;
      assert ab[i] == a[i];
    }
    forall c | c in ClosedBy(b) ensures c in ClosedBy(ab) {
      var i :| 0 <= i < |b| && b[i].Close? && b[i].conn == c;
      assert ab[i + |a|] == b[i];
    }
  }

  /** The first event of every attempt is the write of that attempt's message
      on the current connection; it can only succeed on an open connection. */
  lemma AttemptsStartWithWrite(st: SenderState, attempt: nat, env: seq<AttemptEnv>)
    requires 1 <= attempt <= MaxSendAttempts <= |env|
    ensures var trace := Attempts(st, attempt, env).1;
      && |trace| > 0
      && trace[0] == Write(st.conn, Outgoing(st.messageCount, attempt, env[attempt - 1].timestamp),
                           env[attempt - 1].writeOk && st.conn !in st.closed)
  {
  }

  /** Splits the trace of a run of attempts that reconnects into the failed
      write, the close and dial, and the trace of the next attempt. */
  lemma AttemptsUnfold(st: SenderState, attempt: nat, env: seq<AttemptEnv>)
    requires 1 <= attempt < MaxSendAttempts <= |env|
    requires !(env[attempt - 1].writeOk && st.conn !in st.closed)
    ensures var a := env[attempt - 1];
      var rest := Attempts(Reconnect(st, a.dialOk), attempt + 1, env);
      && Attempts(st, attempt, env).0 == rest.0
      && Attempts(st, attempt, env).1
         == [Write(st.conn, Outgoing(st.messageCount, attempt, a.timestamp), false)]
            + ReconnectEvents(st, a.dialOk) + rest.1
  {
  }

  /** A run of attempts leaves messageCount alone: the count belongs to the
      tick, not to the attempt. Dials only hand out new connection numbers. */
  lemma {:induction false} AttemptsKeepCount(st: SenderState, attempt: nat, env: seq<AttemptEnv>)
    requires 1 <= attempt <= MaxSendAttempts <= |env|
    ensures var (st', trace) := Attempts(st, attempt, env);
      && st'.messageCount == st.messageCount
      && st.nextId <= st'.nextId
      && (forall i :: 0 <= i < |trace| && trace[i].Dial? && trace[i].result.Some? ==>
            st.nextId <= trace[i].result.value < st'.nextId)
    decreases MaxSendAttempts - attempt
  {
    var a := env[attempt - 1];
    if !(a.writeOk && st.conn !in st.closed) && attempt < MaxSendAttempts {
      var next := Reconnect(st, a.dialOk);
      var (st', trace) := Attempts(st, attempt, env);
      var rest := Attempts(next, attempt + 1, env);
      AttemptsUnfold(st, attempt, env);
      AttemptsKeepCount(next, attempt + 1, env);
      forall i | 0 <= i < |trace| && trace[i].Dial? && trace[i].result.Some?
        ensures st.nextId <= trace[i].result.value < st'.nextId
      {
        if i >= 3 { assert trace[i] == rest.1[i - 3]; }
      }
    }
  }

  /** After a run of attempts the current connection is the one the most
      recent successful dial returned, or the original one if no dial
      succeeded. */
  lemma {:induction false} AttemptsConnection(st: SenderState, attempt: nat, env: seq<AttemptEnv>)
    requires 1 <= attempt <= MaxSendAttempts <= |env|
    ensures Attempts(st, attempt, env).0.conn == CurrentAfter(st.conn, Attempts(st, attempt, env).1)
    decreases MaxSendAttempts - attempt
  {
    var a := env[attempt - 1];
    var trace := Attempts(st, attempt, env).1;
    if !(a.writeOk && st.conn !in st.closed) && attempt < MaxSendAttempts {
      var next := Reconnect(st, a.dialOk);
      var rest := Attempts(next, attempt + 1, env);
      var prefix := [trace[0]] + ReconnectEvents(st, a.dialOk);
      AttemptsUnfold(st, attempt, env);
      AttemptsConnection(next, attempt + 1, env);
      CurrentAfterAppend(st.conn, prefix, rest.1);
      assert CurrentAfter(st.conn, prefix) == next.conn by {
        assert CurrentAfter(st.conn, prefix) == CurrentAfter(st.conn, prefix[1..]);
        assert CurrentAfter(st.conn, prefix[1..]) == CurrentAfter(st.conn, prefix[2..]);
        assert CurrentAfter(st.conn, prefix[2..]) == CurrentAfter(next.conn, prefix[3..]);
        assert prefix[3..] == [];
      }
    } else if a.writeOk && st.conn !in st.closed {
      assert trace[1..] == [];
    } else {
      assert trace == [trace[0], Fatal(st.messageCount, MaxSendAttempts)];
      assert CurrentAfter(st.conn, trace) == CurrentAfter(st.conn, trace[1..]);
      assert CurrentAfter(st.conn, trace[1..]) == CurrentAfter(st.conn, trace[1..][1..]);
      assert trace[1..][1..] == [];
    }
  }

  /** After a run of attempts the closed connections are those closed before
      plus those the trace closes, and the process has exited exactly when
      the trace ends in Fatal. */
  lemma {:induction false} AttemptsClosedAndExit(st: SenderState, attempt: nat, env: seq<AttemptEnv>)
    requires 1 <= attempt <= MaxSendAttempts <= |env|
    ensures var (st', trace) := Attempts(st, attempt, env);
      && |trace| > 0
      && st'.closed == st.closed + ClosedBy(trace)
      && st'.exited == (st.exited || trace[|trace| - 1].Fatal?)
    decreases MaxSendAttempts - attempt
  {
    var a := env[attempt - 1];
    var trace := Attempts(st, attempt, env).1;
    if !(a.writeOk && st.conn !in st.closed) && attempt < MaxSendAttempts {
      var next := Reconnect(st, a.dialOk);
      var rest := Attempts(next, attempt + 1, env);
      var prefix := [trace[0]] + ReconnectEvents(st, a.dialOk);
      AttemptsUnfold(st, attempt, env);
      AttemptsClosedAndExit(next, attempt + 1, env);
      ClosedByAppend(prefix, rest.1);
      assert ClosedBy(prefix) == {st.conn} by {
        assert prefix[1] == Close(st.conn);
      }
      assert trace[|trace| - 1] == rest.1[|rest.1| - 1];
    } else if a.writeOk && st.conn !in st.closed {
      assert ClosedBy(trace) == {};
    } else {
      assert ClosedBy(trace) == {};
    }
  }

  /** A run of attempts keeps the sender holding at most one open
      connection: every reconnect closes the old connection first. */
  lemma {:induction false} AttemptsKeepValid(st: SenderState, attempt: nat, env: seq<AttemptEnv>)
    requires 1 <= attempt <= MaxSendAttempts <= |env|
    requires Valid(st)
    ensures Valid(Attempts(st, attempt, env).0)
    decreases MaxSendAttempts - attempt
  {
    var a := env[attempt - 1];
    if !(a.writeOk && st.conn !in st.closed) && attempt < MaxSendAttempts {
      var next := Reconnect(st, a.dialOk);
      assert Valid(next);
      AttemptsUnfold(st, attempt, env);
      AttemptsKeepValid(next, attempt + 1, env);
    }
  }

  /** The writes of a run of attempts that reconnects: the failed write,
      then the writes of the next attempt on. */
  lemma AttemptsRetryWrites(st: SenderState, attempt: nat, env: seq<AttemptEnv>)
    requires 1 <= attempt < MaxSendAttempts <= |env|
    requires !(env[attempt - 1].writeOk && st.conn !in st.closed)
    ensures var trace := Attempts(st, attempt, env).1;
      var rest := Attempts(Reconnect(st, env[attempt - 1].dialOk), attempt + 1, env).1;
      && |rest| > 0 && |trace| > |rest|
      && trace[0].Write? && !trace[0].ok
      && Writes(trace) == [trace[0]] + Writes(rest)
      && trace[|trace| - 1] == rest[|rest| - 1]
  {
    var a := env[attempt - 1];
    var trace := Attempts(st, attempt, env).1;
    var rest := Attempts(Reconnect(st, a.dialOk), attempt + 1, env).1;
    AttemptsUnfold(st, attempt, env);
    AttemptsStartWithWrite(Reconnect(st, a.dialOk), attempt + 1, env);
    WritesAppend([trace[0]] + ReconnectEvents(st, a.dialOk), rest);
    WritesAppend([trace[0]], ReconnectEvents(st, a.dialOk));
  }

  lemma AllFailedCons(w: Event, ws: seq<Event>)
    requires w.Write? && forall k :: 0 <= k < |ws| ==> ws[k].Write?
    ensures AllFailed([w] + ws) <==> !w.ok && AllFailed(ws)
  {
    var t := [w] + ws;
    if AllFailed(t) {
      forall k | 0 <= k < |ws| ensures !ws[k].ok {
        assert t[k + 1] == ws[k];
      }
      assert t[0] == w;
    }
  }

  /** A run of attempts makes at least one and at most the remaining number
      of writes, and the j-th write sends the tick's message for attempt
      `attempt + j` with the timestamp taken for that attempt. */
  lemma {:induction false} AttemptsWrites(st: SenderState, attempt: nat, env: seq<AttemptEnv>)
    requires 1 <= attempt <= MaxSendAttempts <= |env|
    ensures var ws := Writes(Attempts(st, attempt, env).1);
      && 1 <= |ws| <= MaxSendAttempts - attempt + 1
      && forall j :: 0 <= j < |ws| ==>
           ws[j].msg == Outgoing(st.messageCount, attempt + j, env[attempt + j - 1].timestamp)
    decreases MaxSendAttempts - attempt
  {
    var a := env[attempt - 1];
    var trace := Attempts(st, attempt, env).1;
    AttemptsStartWithWrite(st, attempt, env);
    if !(a.writeOk && st.conn !in st.closed) && attempt < MaxSendAttempts {
      var next := Reconnect(st, a.dialOk);
      var rest := Attempts(next, attempt + 1, env).1;
      AttemptsRetryWrites(st, attempt, env);
      AttemptsWrites(next, attempt + 1, env);
    } else if a.writeOk && st.conn !in st.closed {
      assert trace == [trace[0]];
    } else {
      assert trace == [trace[0]] + [Fatal(st.messageCount, MaxSendAttempts)];
      WritesAppend([trace[0]], [Fatal(st.messageCount, MaxSendAttempts)]);
    }
  }

  /** A run of attempts ends in Fatal exactly when every one of its writes
      failed, and then only after the write of the last allowed attempt. */
  lemma {:induction false} AttemptsFatal(st: SenderState, attempt: nat, env: seq<AttemptEnv>)
    requires 1 <= attempt <= MaxSendAttempts <= |env|
    ensures var trace := Attempts(st, attempt, env).1;
      var last := trace[|trace| - 1];
      && (last.Fatal? <==> AllFailed(Writes(trace)))
      && (last.Fatal? ==> last == Fatal(st.messageCount, MaxSendAttempts)
                          && |Writes(trace)| == MaxSendAttempts - attempt + 1)
    decreases MaxSendAttempts - attempt
  {
    var a := env[attempt - 1];
    var trace := Attempts(st, attempt, env).1;
    AttemptsStartWithWrite(st, attempt, env);
    if !(a.writeOk && st.conn !in st.closed) && attempt < MaxSendAttempts {
      var next := Reconnect(st, a.dialOk);
      var rest := Attempts(next, attempt + 1, env).1;
      AttemptsRetryWrites(st, attempt, env);
      AttemptsFatal(next, attempt + 1, env);
      AttemptsClosedAndExit(next, attempt + 1, env);
      AllFailedCons(trace[0], Writes(rest));
    } else if a.writeOk && st.conn !in st.closed {
      assert trace == [trace[0]];
      assert Writes(trace) == [trace[0]] + Writes(trace[1..]);
      assert Writes(trace)[0].ok;
    } else {
      assert trace == [trace[0]] + [Fatal(st.messageCount, MaxSendAttempts)];
      WritesAppend([trace[0]], [Fatal(st.messageCount, MaxSendAttempts)]);
    }
  }

  /** A run of attempts that does not end in Fatal ends in a successful
      write, and nothing follows a successful write or Fatal: once a write
      succeeds there is no further write, close or dial in that tick. */
  lemma {:induction false} AttemptsStop(st: SenderState, attempt: nat, env: seq<AttemptEnv>)
    requires 1 <= attempt <= MaxSendAttempts <= |env|
    ensures var (st', trace) := Attempts(st, attempt, env);
      var last := trace[|trace| - 1];
      && (!last.Fatal? ==> last.Write? && last.ok && last.conn == st'.conn)
      && forall i :: 0 <= i < |trace| - 1 ==> !trace[i].Fatal? && !(trace[i].Write? && trace[i].ok)
    decreases MaxSendAttempts - attempt
  {
    var a := env[attempt - 1];
    var trace := Attempts(st, attempt, env).1;
    AttemptsStartWithWrite(st, attempt, env);
    if !(a.writeOk && st.conn !in st.closed) && attempt < MaxSendAttempts {
      var next := Reconnect(st, a.dialOk);
      var rest := Attempts(next, attempt + 1, env).1;
      AttemptsUnfold(st, attempt, env);
      AttemptsStop(next, attempt + 1, env);
      AttemptsClosedAndExit(next, attempt + 1, env);
      assert trace[|trace| - 1] == rest[|rest| - 1];
      forall i | 0 <= i < |trace| - 1
        ensures !trace[i].Fatal? && !(trace[i].Write? && trace[i].ok)
      {
        if i >= 3 { assert trace[i] == rest[i - 3]; }
      }
    } else if a.writeOk && st.conn !in st.closed {
      assert trace == [trace[0]];
    } else {
      assert trace == [trace[0]] + [Fatal(st.messageCount, MaxSendAttempts)];
    }
  }

  /** Within a run of attempts every failed write is followed by Fatal or by
      the Close of its connection and a reconnect dial: no attempt retries on
      the connection that failed without reconnecting first. */
  lemma {:induction false} AttemptsRetry(st: SenderState, attempt: nat, env: seq<AttemptEnv>)
    requires 1 <= attempt <= MaxSendAttempts <= |env|
    ensures FailuresReconnect(Attempts(st, attempt, env).1)
    decreases MaxSendAttempts - attempt
  {
    var a := env[attempt - 1];
    var trace := Attempts(st, attempt, env).1;
    if !(a.writeOk && st.conn !in st.closed) && attempt < MaxSendAttempts {
      var next := Reconnect(st, a.dialOk);
      var rest := Attempts(next, attempt + 1, env).1;
      AttemptsUnfold(st, attempt, env);
      AttemptsRetry(next, attempt + 1, env);
      var prefix := [trace[0]] + ReconnectEvents(st, a.dialOk);
      forall i | 0 <= i < |trace| && trace[i].Write? && !trace[i].ok
        ensures FailureWellPlaced(trace, i)
      {
        if i >= 3 {
          assert trace[i] == rest[i - 3];
          FailureWellPlacedShift(prefix, rest, i - 3);
        } else {
          assert i == 0;
        }
      }
    } else if a.writeOk && st.conn !in st.closed {
      assert trace == [trace[0]];
    } else {
      assert trace == [trace[0]] + [Fatal(st.messageCount, MaxSendAttempts)];
    }
  }

  /** Within a run of attempts every reconnect dial is preceded by the failed
      write and the Close of the connection it used, and is followed by the
      next write: on the new connection when the dial succeeded, on the
      closed old connection (where it fails) when it did not. */
  lemma {:induction false} AttemptsReconnect(st: SenderState, attempt: nat, env: seq<AttemptEnv>)
    requires 1 <= attempt <= MaxSendAttempts <= |env|
    ensures DialsFollowClose(Attempts(st, attempt, env).1)
    decreases MaxSendAttempts - attempt
  {
    var a := env[attempt - 1];
    var trace := Attempts(st, attempt, env).1;
    AttemptsStartWithWrite(st, attempt, env);
    if !(a.writeOk && st.conn !in st.closed) && attempt < MaxSendAttempts {
      var next := Reconnect(st, a.dialOk);
      var rest := Attempts(next, attempt + 1, env).1;
      AttemptsUnfold(st, attempt, env);
      AttemptsReconnect(next, attempt + 1, env);
      AttemptsStartWithWrite(next, attempt + 1, env);
      var prefix := [trace[0]] + ReconnectEvents(st, a.dialOk);
      assert trace[3] == rest[0];
      assert DialWellPlaced(trace, 2);
      forall i | 0 <= i < |trace| && trace[i].Dial?
        ensures DialWellPlaced(trace, i)
      {
        if i >= 3 {
          assert trace[i] == rest[i - 3];
          DialWellPlacedShift(prefix, rest, i - 3);
        } else {
          assert i == 2;
        }
      }
    } else if a.writeOk && st.conn !in st.closed {
      assert trace == [trace[0]];
    } else {
      assert trace == [trace[0]] + [Fatal(st.messageCount, MaxSendAttempts)];
    }
  }

  /** Within a run of attempts every reconnect dial succeeds exactly when
      the environment's dial for the attempt that failed succeeds. */
  lemma {:induction false} AttemptsDialOutcomes(st: SenderState, attempt: nat, env: seq<AttemptEnv>)
    requires 1 <= attempt <= MaxSendAttempts <= |env|
    ensures DialsFollowEnv(Attempts(st, attempt, env).1, attempt, env)
    decreases MaxSendAttempts - attempt
  {
    var a := env[attempt - 1];
    var trace := Attempts(st, attempt, env).1;
    if !(a.writeOk && st.conn !in st.closed) && attempt < MaxSendAttempts {
      var next := Reconnect(st, a.dialOk);
      var rest := Attempts(next, attempt + 1, env).1;
      AttemptsUnfold(st, attempt, env);
      AttemptsDialOutcomes(next, attempt + 1, env);
      var prefix := [trace[0]] + ReconnectEvents(st, a.dialOk);
      forall i | 0 <= i < |trace| && trace[i].Dial?
        ensures DialMatchesEnv(trace, i, attempt, env)
      {
        if i >= 3 {
          assert trace[i] == rest[i - 3];
          DialMatchesEnvShift(prefix, rest, i - 3, attempt, env);
        } else {
          assert i == 2;
        }
      }
    } else if a.writeOk && st.conn !in st.closed {
      assert trace == [trace[0]];
    } else {
      assert trace == [trace[0]] + [Fatal(st.messageCount, MaxSendAttempts)];
    }
  }

  // ---------------------------------------------------------------------------
  // One tick, and the run over many ticks

  /** One tick counts exactly one new message however many attempts it
      takes; it writes at least once and at most MaxSendAttempts times; the
      k-th write sends attempt k of that message. */
  lemma TickWrites(st: SenderState, env: seq<AttemptEnv>)
    requires MaxSendAttempts <= |env|
    ensures var (st', trace) := TickSpec(st, env);
      var ws := Writes(trace);
      && st'.messageCount == st.messageCount + 1
      && 1 <= |ws| <= MaxSendAttempts
      && (forall j :: 0 <= j < |ws| ==> ws[j].msg == Outgoing(st.messageCount + 1, j + 1, env[j].timestamp))
  {
    var counted := st.(messageCount := st.messageCount + 1);
    assert TickSpec(st, env) == Attempts(counted, 1, env);
    AttemptsKeepCount(counted, 1, env);
    AttemptsWrites(counted, 1, env);
  }

  /** One tick ends in Fatal, and the process exits, exactly when all its
      writes failed, which takes all MaxSendAttempts writes; otherwise it
      ends in its only successful write, and the connection that write used
      stays current. */
  lemma TickEnds(st: SenderState, env: seq<AttemptEnv>)
    requires MaxSendAttempts <= |env|
    ensures var (st', trace) := TickSpec(st, env);
      var ws := Writes(trace);
      var last := trace[|trace| - 1];
      && (st'.exited <==> st.exited || last.Fatal?)
      && (last.Fatal? <==> AllFailed(ws))
      && (last.Fatal? ==> last == Fatal(st.messageCount + 1, MaxSendAttempts) && |ws| == MaxSendAttempts)
      && (!last.Fatal? ==> last.Write? && last.ok && st'.conn == last.conn)
      && (forall i :: 0 <= i < |trace| - 1 ==> !trace[i].Fatal? && !(trace[i].Write? && trace[i].ok))
  {
    var counted := st.(messageCount := st.messageCount + 1);
    assert TickSpec(st, env) == Attempts(counted, 1, env);
    AttemptsClosedAndExit(counted, 1, env);
    AttemptsFatal(counted, 1, env);
    AttemptsStop(counted, 1, env);
  }

  /** In one tick every failed write but the last allowed one is followed by
      a reconnect, and every reconnect closes the current connection before
      it dials; a successful dial makes a new, never used connection current
      and a failed one leaves the closed connection current for the next
      write. */
  lemma TickReconnects(st: SenderState, env: seq<AttemptEnv>)
    requires MaxSendAttempts <= |env|
    ensures var (st', trace) := TickSpec(st, env);
      && FailuresReconnect(trace)
      && DialsFollowClose(trace)
      && DialsFollowEnv(trace, 1, env)
      && (forall i :: 0 <= i < |trace| && trace[i].Dial? && trace[i].result.Some? ==>
            st.nextId <= trace[i].result.value < st'.nextId)
  {
    var counted := st.(messageCount := st.messageCount + 1);
    assert TickSpec(st, env) == Attempts(counted, 1, env);
    AttemptsRetry(counted, 1, env);
    AttemptsReconnect(counted, 1, env);
    AttemptsDialOutcomes(counted, 1, env);
    AttemptsKeepCount(counted, 1, env);
  }

  /** After one tick the current connection is the one the last successful
      dial returned (or the original one), the closed connections are those
      closed before and those the tick closed, and the sender still holds at
      most one open connection. */
  lemma TickConnections(st: SenderState, env: seq<AttemptEnv>)
    requires MaxSendAttempts <= |env|
    ensures var (st', trace) := TickSpec(st, env);
      && st'.conn == CurrentAfter(st.conn, trace)
      && st'.closed == st.closed + ClosedBy(trace)
      && (Valid(st) ==> Valid(st'))
  {
    var counted := st.(messageCount := st.messageCount + 1);
    assert TickSpec(st, env) == Attempts(counted, 1, env);
    AttemptsConnection(counted, 1, env);
    AttemptsClosedAndExit(counted, 1, env);
    if Valid(st) {
      assert Valid(counted);
      AttemptsKeepValid(counted, 1, env);
    }
  }

  /** A tick keeps the invariant that at most one connection is open. */
  lemma TickKeepsValid(st: SenderState, env: seq<AttemptEnv>)
    requires MaxSendAttempts <= |env|
    ensures Valid(st) ==> Valid(TickSpec(st, env).0)
  {
    TickConnections(st, env);
  }

  /** The facts about one tick that a run of ticks chains together. */
  lemma TickSummary(st: SenderState, env: seq<AttemptEnv>)
    requires MaxSendAttempts <= |env|
    ensures var (st', trace) := TickSpec(st, env);
      && |trace| > 0
      && st'.messageCount == st.messageCount + 1
      && (st'.exited <==> st.exited || trace[|trace| - 1].Fatal?)
      && (forall i :: 0 <= i < |trace| - 1 ==> !trace[i].Fatal?)
      && (Valid(st) ==> Valid(st'))
  {
    var counted := st.(messageCount := st.messageCount + 1);
    assert TickSpec(st, env) == Attempts(counted, 1, env);
    AttemptsKeepCount(counted, 1, env);
    AttemptsClosedAndExit(counted, 1, env);
    AttemptsStop(counted, 1, env);
    if Valid(st) {
      assert Valid(counted);
      AttemptsKeepValid(counted, 1, env);
    }
  }

  /** Joining the traces of one tick and of the ticks after it: Fatal can
      only be the last event when it is the last event of each part and the
      first part ends in Fatal only if nothing follows. */
  lemma FatalStaysLast(a: seq<Event>, b: seq<Event>)
    requires |a| > 0
    requires forall i :: 0 <= i < |a| - 1 ==> !a[i].Fatal?
    requires forall i :: 0 <= i < |b| - 1 ==> !b[i].Fatal?
    requires b != [] ==> !a[|a| - 1].Fatal?
    ensures forall i :: 0 <= i < |a + b| - 1 ==> !(a + b)[i].Fatal?
    ensures (a + b)[|a + b| - 1] == if b == [] then a[|a| - 1] else b[|b| - 1]
  {
    var t := a + b;
    forall i | 0 <= i < |t| - 1 ensures !t[i].Fatal? {
      if i >= |a| {
        assert t[i] == b[i - |a|];
      } else {
        assert t[i] == a[i];
      }
    }
  }

  /** Over a run of ticks messageCount grows by exactly the number of ticks
      handled; ticks stop being handled only when the process has exited;
      Fatal, if it occurs, is the last event of the run; and the sender never
      holds two open connections. */
  lemma {:induction false} RunProgress(st: SenderState, ticks: seq<seq<AttemptEnv>>)
    requires WellSupplied(ticks)
    ensures var (st', trace, handled) := RunSpec(st, ticks);
      && handled <= |ticks|
      && st'.messageCount == st.messageCount + handled
      && (handled < |ticks| ==> st'.exited)
      && (st.exited ==> handled == 0 && trace == [])
      && (!st.exited ==> (st'.exited <==> |trace| > 0 && trace[|trace| - 1].Fatal?))
      && (forall i :: 0 <= i < |trace| - 1 ==> !trace[i].Fatal?)
      && (Valid(st) ==> Valid(st'))
    decreases |ticks|
  {
    if ticks != [] && !st.exited {
      var (mid, tickTrace) := TickSpec(st, ticks[0]);
      TickSummary(st, ticks[0]);
      RunProgress(mid, ticks[1..]);
      var rest := RunSpec(mid, ticks[1..]).1;
      FatalStaysLast(tickTrace, rest);
    }
  }

  // ---------------------------------------------------------------------------
  // The client as the program runs it

  /** The initial connection loop: dial until a dial succeeds (the program
      retries without bound, pausing between dials; here the loop runs over
      the dial outcomes supplied). Reports whether it connected and how many
      dials it made. */
  method ConnectWithRetry(dials: seq<bool>) returns (connected: bool, tries: nat)
    ensures tries <= |dials|
    ensures connected <==> true in dials
    ensures connected ==> 0 < tries && dials[tries - 1] && forall k :: 0 <= k < tries - 1 ==> !dials[k]
    ensures !connected ==> tries == |dials|
  {
    connected, tries := false, 0;
    while tries < |dials|
      invariant tries <= |dials|
      invariant forall k :: 0 <= k < tries ==> !dials[k]
    {
      var ok := dials[tries];
      tries := tries + 1;
      if ok {
        connected := true;
        break;
      }
    }
  }

  // Steps of the attempt loop in Client.Tick, one per way an attempt ends.

  lemma TickStart(spec: (SenderState, seq<Event>), start: SenderState, env: seq<AttemptEnv>)
    requires MaxSendAttempts <= |env| && spec == TickSpec(start, env)
    ensures var counted := start.(messageCount := start.messageCount + 1);
      spec == (Attempts(counted, 1, env).0, [] + Attempts(counted, 1, env).1)
  {
    var counted := start.(messageCount := start.messageCount + 1);
    assert [] + Attempts(counted, 1, env).1 == Attempts(counted, 1, env).1;
  }

  lemma TickSucceeds(spec: (SenderState, seq<Event>), st: SenderState, attempt: nat, env: seq<AttemptEnv>,
                     done: seq<Event>)
    requires 1 <= attempt <= MaxSendAttempts <= |env|
    requires env[attempt - 1].writeOk && st.conn !in st.closed
    requires spec == (Attempts(st, attempt, env).0, done + Attempts(st, attempt, env).1)
    ensures spec == (st, done + [Write(st.conn, Outgoing(st.messageCount, attempt, env[attempt - 1].timestamp), true)])
  {
  }

  lemma TickFails(spec: (SenderState, seq<Event>), st: SenderState, attempt: nat, env: seq<AttemptEnv>,
                  done: seq<Event>)
    requires attempt == MaxSendAttempts <= |env|
    requires !(env[attempt - 1].writeOk && st.conn !in st.closed)
    requires spec == (Attempts(st, attempt, env).0, done + Attempts(st, attempt, env).1)
    ensures spec == (st.(exited := true),
                     done + [Write(st.conn, Outgoing(st.messageCount, attempt, env[attempt - 1].timestamp), false)]
                          + [Fatal(st.messageCount, MaxSendAttempts)])
  {
    var w := Write(st.conn, Outgoing(st.messageCount, attempt, env[attempt - 1].timestamp), false);
    assert done + [w] + [Fatal(st.messageCount, MaxSendAttempts)] == done + [w, Fatal(st.messageCount, MaxSendAttempts)];
  }

  lemma TickRetries(spec: (SenderState, seq<Event>), st: SenderState, attempt: nat, env: seq<AttemptEnv>,
                    done: seq<Event>)
    requires 1 <= attempt < MaxSendAttempts <= |env|
    requires !(env[attempt - 1].writeOk && st.conn !in st.closed)
    requires spec == (Attempts(st, attempt, env).0, done + Attempts(st, attempt, env).1)
    ensures var a := env[attempt - 1];
      var next := Reconnect(st, a.dialOk);
      var w := Write(st.conn, Outgoing(st.messageCount, attempt, a.timestamp), false);
      spec == (Attempts(next, attempt + 1, env).0,
               done + [w] + [Close(st.conn)] + [Dial(if a.dialOk then Some(st.nextId) else None)]
                 + Attempts(next, attempt + 1, env).1)
  {
    var a := env[attempt - 1];
    var next := Reconnect(st, a.dialOk);
    var w := Write(st.conn, Outgoing(st.messageCount, attempt, a.timestamp), false);
    var later := Attempts(next, attempt + 1, env).1;
    AttemptsUnfold(st, attempt, env);
    assert done + [w] + [Close(st.conn)] + [Dial(if a.dialOk then Some(st.nextId) else None)] + later
        == done + ([w] + ReconnectEvents(st, a.dialOk) + later);
  }

  /** A run that already handled `handled` ticks with events `done`,
      followed by the run r of the remaining ticks. */
  function Joined(done: seq<Event>, handled: nat, r: (SenderState, seq<Event>, nat)): (SenderState, seq<Event>, nat)
  {
    (r.0, done + r.1, handled + r.2)
  }

  /** The run over ticks that are not all handled yet, once the process is
      still running: the next tick, then the run over the ticks after it. */
  lemma RunSpecUnfold(st: SenderState, ticks: seq<seq<AttemptEnv>>)
      returns (tick: (SenderState, seq<Event>), rest: (SenderState, seq<Event>, nat))
    requires WellSupplied(ticks) && ticks != [] && !st.exited
    ensures WellSupplied(ticks[1..]) && MaxSendAttempts <= |ticks[0]|
    ensures tick == TickSpec(st, ticks[0]) && rest == RunSpec(tick.0, ticks[1..])
    ensures RunSpec(st, ticks) == (rest.0, tick.1 + rest.1, rest.2 + 1)
  {
    tick := TickSpec(st, ticks[0]);
    rest := RunSpec(tick.0, ticks[1..]);
  }

  /** Handling one more tick moves its events from the rest of the run to
      the part already handled. */
  lemma JoinStep(done: seq<Event>, handled: nat, events: seq<Event>, r: (SenderState, seq<Event>, nat))
    ensures Joined(done, handled, (r.0, events + r.1, r.2 + 1)) == Joined(done + events, handled + 1, r)
  {
    assert done + (events + r.1) == (done + events) + r.1;
  }

  /** One tick of a run, seen from the ticker loop: a tick that takes st to
      st' with the given events leaves the run of the later ticks to do. */
  lemma RunAdvance(st: SenderState, ticks: seq<seq<AttemptEnv>>, done: seq<Event>, handled: nat,
                   st': SenderState, events: seq<Event>)
    requires WellSupplied(ticks) && ticks != [] && !st.exited
    requires (st', events) == TickSpec(st, ticks[0])
    ensures WellSupplied(ticks[1..])
    ensures Joined(done, handled, RunSpec(st, ticks)) == Joined(done + events, handled + 1, RunSpec(st', ticks[1..]))
  {
    var tick, rest := RunSpecUnfold(st, ticks);
    JoinStep(done, handled, events, rest);
  }

  /** A run with no ticks left, or after the process exited, adds nothing. */
  lemma RunDone(st: SenderState, ticks: seq<seq<AttemptEnv>>, done: seq<Event>, handled: nat)
    requires WellSupplied(ticks) && (ticks == [] || st.exited)
    ensures Joined(done, handled, RunSpec(st, ticks)) == (st, done, handled)
  {
    assert done + [] == done;
  }

  /** The sender's variables once the initial connection (number 0) is made. */
  class Client {
    var messageCount: nat
    var conn: ConnId
    var closed: set<ConnId>
    var nextId: ConnId
    var exited: bool

    function Snapshot(): SenderState
      reads this
    {
      SenderState(messageCount, conn, closed, nextId, exited)
    }

    constructor ()
      ensures Snapshot() == Initial && Valid(Snapshot())
    {
      messageCount, conn, closed, nextId, exited := 0, 0, {}, 1, false;
    }

    /** One tick of the ticker: count the new message, then make up to
        MaxSendAttempts write attempts, reconnecting after each failed one,
        and exit after the last allowed one fails. */
    method Tick(env: seq<AttemptEnv>) returns (trace: seq<Event>)
      requires !exited && MaxSendAttempts <= |env|
      modifies this
      ensures (Snapshot(), trace) == TickSpec(old(Snapshot()), env)
      ensures Valid(old(Snapshot())) ==> Valid(Snapshot())
    {
      ghost var spec := TickSpec(Snapshot(), env);
      TickKeepsValid(Snapshot(), env);
      messageCount := messageCount + 1;
      trace := [];
      var attempt := 1;
      TickStart(spec, old(Snapshot()), env);
      while true
        invariant 1 <= attempt <= MaxSendAttempts
        invariant spec == (Attempts(Snapshot(), attempt, env).0, trace + Attempts(Snapshot(), attempt, env).1)
        decreases MaxSendAttempts - attempt
      {
        ghost var before := Snapshot();
        ghost var done := trace;
        var a := env[attempt - 1];
        var msg := Outgoing(messageCount, attempt, a.timestamp);
        var ok := a.writeOk && conn !in closed;
        trace := trace + [Write(conn, msg, ok)];
        if ok {
          TickSucceeds(spec, before, attempt, env, done);
          break;
        }
        if attempt == MaxSendAttempts {
          trace := trace + [Fatal(messageCount, MaxSendAttempts)];
          exited := true;
          TickFails(spec, before, attempt, env, done);
          return;
        }
        TickRetries(spec, before, attempt, env, done);
        trace := trace + [Close(conn)];
        closed := closed + {conn};
        if !a.dialOk {
          trace := trace + [Dial(None)];
          attempt := attempt + 1;
          assert Snapshot() == Reconnect(before, a.dialOk);
          continue;
        }
        trace := trace + [Dial(Some(nextId))];
        conn, nextId := nextId, nextId + 1;
        attempt := attempt + 1;
        assert Snapshot() == Reconnect(before, a.dialOk);
      }
    }

    /** The ticker loop: handle the ticks one after another until the
        process exits. Returns the events and the number of ticks handled. */
    method Run(ticks: seq<seq<AttemptEnv>>) returns (trace: seq<Event>, handled: nat)
      requires WellSupplied(ticks)
      modifies this
      ensures (Snapshot(), trace, handled) == RunSpec(old(Snapshot()), ticks)
      ensures Valid(old(Snapshot())) ==> Valid(Snapshot())
    {
      RunProgress(Snapshot(), ticks);
      ghost var spec := RunSpec(Snapshot(), ticks);
      trace, handled := [], 0;
      assert ticks[handled..] == ticks;
      assert trace + spec.1 == spec.1;
      while handled < |ticks| && !exited
        invariant handled <= |ticks|
        invariant WellSupplied(ticks[handled..])
        invariant spec == Joined(trace, handled, RunSpec(Snapshot(), ticks[handled..]))
        decreases |ticks| - handled
      {
        ghost var before := Snapshot();
        ghost var tail := ticks[handled..];
        assert tail[0] == ticks[handled] && tail[1..] == ticks[handled + 1..];
        var events := Tick(ticks[handled]);
        RunAdvance(before, tail, trace, handled, Snapshot(), events);
        trace := trace + events;
        handled := handled + 1;
      }
      RunDone(Snapshot(), ticks[handled..], trace, handled);
    }
  }
}

=== FILE: text.dfy ===
/**
 * The two pieces of Go's standard text handling that the program relies on:
 * strings.TrimSpace (with unicode.IsSpace) and the decimal rendering of an
 * integer by the %d verb, together with the digit parsing that inverts it.
 */
module Text {
  import opened Wrappers

  /** unicode.IsSpace: the Latin-1 white space characters, plus every other
      code point with the Unicode White_Space property. */
  predicate IsSpace(c: char)
  {
    || c == '\t' || c == '\n' || c == '\U{0B}' || c == '\U{0C}' || c == '\r' || c == ' '
    || c == '\U{85}' || c == '\U{A0}' || c == '\U{1680}'
    || ('\U{2000}' <= c <= '\U{200A}')
    || c == '\U{2028}' || c == '\U{2029}' || c == '\U{202F}' || c == '\U{205F}' || c == '\U{3000}'
  }

  predicate AllSpace(s: string)
  {
    forall k :: 0 <= k < |s| ==> IsSpace(s[k])
  }

  /** The text has no white space at either end. */
  predicate Trimmed(s: string)
  {
    s == [] || (!IsSpace(s[0]) && !IsSpace(s[|s| - 1]))
  }

  /** strings.TrimSpace: s without its leading and trailing white space.
      (Go trims the front first and then the back; the result is the same.) */
  function TrimSpace(s: string): (r: string)
    ensures |r| <= |s| && Trimmed(r)
    decreases |s|
  {
    if s != [] && IsSpace(s[0]) then TrimSpace(s[1..])
    else if s != [] && IsSpace(s[|s| - 1]) then TrimSpace(s[..|s| - 1])
    else s
  }

  /** r sits at offset i of s with only white space before and after it. */
  predicate PaddedAt(s: string, r: string, i: nat)
  {
    i + |r| <= |s| && s[i..i + |r|] == r && AllSpace(s[..i]) && AllSpace(s[i + |r|..])
  }

  /** What TrimSpace keeps is a piece of s with only white space around it. */
  lemma {:induction false} TrimSpaceIsInner(s: string)
    ensures exists i: nat :: PaddedAt(s, TrimSpace(s), i)
    decreases |s|
  {
    var r := TrimSpace(s);
    if s != [] && IsSpace(s[0]) {
      TrimSpaceIsInner(s[1..]);
      var i: nat :| PaddedAt(s[1..], r, i);
      PaddedAtFront(s, r, i);
    } else if s != [] && IsSpace(s[|s| - 1]) {
      TrimSpaceIsInner(s[..|s| - 1]);
      var i: nat :| PaddedAt(s[..|s| - 1], r, i);
      PaddedAtBack(s, r, i);
    } else {
      assert s[0..|s|] == s;
      assert PaddedAt(s, r, 0);
    }
  }

  lemma PaddedAtFront(s: string, r: string, i: nat)
    requires s != [] && IsSpace(s[0]) && PaddedAt(s[1..], r, i)
    ensures PaddedAt(s, r, i + 1)
  {
    var t := s[1..];
    assert s[i + 1..i + 1 + |r|] == t[i..i + |r|];
    assert s[..i + 1] == [s[0]] + t[..i];
    assert s[i + 1 + |r|..] == t[i + |r|..];
  }

  lemma PaddedAtBack(s: string, r: string, i: nat)
    requires s != [] && IsSpace(s[|s| - 1]) && PaddedAt(s[..|s| - 1], r, i)
    ensures PaddedAt(s, r, i)
  {
    var t := s[..|s| - 1];
    assert s[i..i + |r|] == t[i..i + |r|];
    assert s[..i] == t[..i];
    assert s[i + |r|..] == t[i + |r|..] + [s[|s| - 1]];
  }

  /** Removing white space that pads a trimmed text on both sides gives that
      text back, whatever the padding: TrimSpace keeps exactly the inner text. */
  lemma {:induction false} TrimSpaceOfPadded(pre: string, body: string, post: string)
    requires AllSpace(pre) && AllSpace(post) && Trimmed(body)
    ensures TrimSpace(pre + body + post) == body
    decreases |pre| + |post|
  {
    var s := pre + body + post;
    if pre != [] {
      assert s[0] == pre[0];
      assert s[1..] == pre[1..] + body + post;
      TrimSpaceOfPadded(pre[1..], body, post);
    } else if post != [] {
      assert s[|s| - 1] == post[|post| - 1];
      if body == [] {
        assert s == post;
        assert s[1..] == [] + [] + post[1..];
        TrimSpaceOfPadded([], [], post[1..]);
      } else {
        assert s[0] == body[0];
        assert s[..|s| - 1] == [] + body + post[..|post| - 1];
        TrimSpaceOfPadded([], body, post[..|post| - 1]);
      }
    } else {
      assert s == body;
    }
  }

  predicate IsDigit(c: char)
  {
    '0' <= c <= '9'
  }

  predicate AllDigits(s: string)
  {
    forall k :: 0 <= k < |s| ==> IsDigit(s[k])
  }

  function DigitChar(d: nat): (c: char)
    requires d < 10
    ensures IsDigit(c)
  {
    "0123456789"[d]
  }

  function DigitValue(c: char): (d: nat)
    requires IsDigit(c)
    ensures d < 10
  {
    c as int - '0' as int
  }

  /** The %d rendering of a non-negative integer: decimal digits, most
      significant first, with no leading zero. */
  function NatToDecimal(n: nat): (r: string)
    ensures |r| > 0 && AllDigits(r)
    ensures r[0] == '0' ==> n == 0
    decreases n
  {
    if n < 10 then [DigitChar(n)] else NatToDecimal(n / 10) + [DigitChar(n % 10)]
  }

  /** The value of a string of decimal digits (the empty string is 0). */
  function DecimalValue(s: string): nat
    requires AllDigits(s)
    decreases |s|
  {
    if s == [] then 0 else DecimalValue(s[..|s| - 1]) * 10 + DigitValue(s[|s| - 1])
  }

  /** Reading back the digits %d wrote gives the number that was written. */
  lemma {:induction false} DecimalRoundTrip(n: nat)
    ensures DecimalValue(NatToDecimal(n)) == n
    decreases n
  {
    var r := NatToDecimal(n);
    if n >= 10 {
      DecimalRoundTrip(n / 10);
      assert r[..|r| - 1] == NatToDecimal(n / 10);
    }
  }

  /** The length of the run of digits that s starts with. */
  function LeadingDigits(s: string): (n: nat)
    ensures n <= |s| && AllDigits(s[..n])
    ensures n < |s| ==> !IsDigit(s[n])
    decreases |s|
  {
    if s != [] && IsDigit(s[0]) then 1 + LeadingDigits(s[1..]) else 0
  }

  /** A number written by %d and followed by a non-digit is read back as
      exactly the digits that were written. */
  lemma LeadingDigitsOfDecimal(n: nat, rest: string)
    requires rest == [] || !IsDigit(rest[0])
    ensures LeadingDigits(NatToDecimal(n) + rest) == |NatToDecimal(n)|
  {
    var d := NatToDecimal(n);
    var s := d + rest;
    assert s[..|d|] == d;
  }

  /** Reads the number a string starts with and returns it with the rest of
      the string; None if the string does not start with a digit. */
  function ParseNumber(s: string): Option<(nat, string)>
  {
    var n := LeadingDigits(s);
    if n == 0 then None else Some((DecimalValue(s[..n]), s[n..]))
  }

  /** ParseNumber inverts %d: a written number followed by a non-digit is read
      back as that number, leaving the rest untouched. */
  lemma ParseNumberOfDecimal(n: nat, rest: string)
    requires rest == [] || !IsDigit(rest[0])
    ensures ParseNumber(NatToDecimal(n) + rest) == Some((n, rest))
  {
    var d := NatToDecimal(n);
    LeadingDigitsOfDecimal(n, rest);
    DecimalRoundTrip(n);
    assert (d + rest)[..|d|] == d;
    assert (d + rest)[|d|..] == rest;
  }
}

=== FILE: wrappers.dfy ===
/** The optional value used wherever the program has a "maybe" result. */
module Wrappers {
  datatype Option<+T> = None | Some(value: T)
}
